=== FILE: README.md ===
# Eduverse core, modelled in Dafny

Eduverse is a learning metaverse. Students buy courses on an ink! smart contract
and meet in shared 2-D rooms served over WebSockets. This project models the
system's sequential core as pure functions over immutable state, and proves
what each operation promises.

- **Participant** (`participant.dfy`) models `User`. It covers the constructor
  defaults (the given position or a random one, an always-random `#hex` colour,
  `"lobby"` as the room) and the `toJSON` projection. `Math.random` draws are
  parameters. A lower-case hex codec shows that the colour round-trips to an
  integer below `0xffffff`.
- **RoomRegistry** (`registry.dfy`) models `RoomManager`, a map from room id to
  the room's users. A room is a sequence kept in JavaScript `Map` insertion
  order, so a re-join keeps its slot.
- **Sessions** (`sessions.dfy`) and **AccessGate** (`access.dfy`) model the
  session store with its 24-hour TTL and lazy expiry, and `verifyRoomAccess`.
  Time, the signature check and the enrollment lookup are parameters.
  `verifyRoomAccess` is not read-only: its session lookup deletes an expired
  session (`apps/backend/src/auth.ts:38-41`), and `AccessGate.VerifyRoomAccess`
  returns the store it leaves.
- **Protocol** (`protocol.dfy`) holds the wire shapes: inbound messages and
  outbound frames. It also holds the server state: the room registry plus the
  session store.
- **MountedServer** (`mounted.dfy`) models the server that `index.ts` mounts
  (`routes/metaverse-ws.ts`). **AuthorisedServer** (`authorised.dfy`) models the
  variant in `metaverse.ts`, which authorises every action. Each WebSocket
  message is one atomic step `(server, subscriptions, message, oracle answers)
  -> (server', subscriptions', outputs)`. The outputs are abstract
  `Publish(topic, frame)` and `Send(frame)` events.
- **Eduverse** (`eduverse.dfy`) models the course contract `apps/contract/lib.rs`:
  - courses, enrollments and completions;
  - the closed `Error` enum and the order of the guard checks;
  - the saturating `u32` course counter;
  - the soulbound certificate transfer.

  Caller, block time, transferred value, payout success, the certificate id
  and mint success are all inputs. `Committed` applies ink!'s rule that a
  message returning `Err` reverts its storage writes.

## Model

| member | source | states |
|---|---|---|
| Participant.NewUser | apps/backend/src/User.ts:11-28 | The user keeps the given id and connection. The position is the supplied one, or a fresh point in [0,100)². The colour is the one `generateRandomColor` draws: `#` plus 1–6 lower-case unpadded hex digits. The room id is the supplied one when non-empty, otherwise `"lobby"`. |
| Participant.NewUserIgnoresColorOption | apps/backend/src/User.ts:14-26 | A colour passed in the options has no effect on the user built. |
| Participant.GenerateRandomColor | apps/backend/src/User.ts:30-32 | The colour is `#` plus lower-case hex with no leading zero (except `#0`). It encodes a value below 16777215, so it is never `#ffffff`. |
| Participant.ColorIndex | apps/backend/src/User.ts:31 | `Math.floor(random * 16777215)` lies in [0, 16777215) for a draw in [0,1). |
| Participant.ToHex | apps/backend/src/User.ts:31 | `toString(16)` gives a non-empty lower-case hex string without a leading zero. |
| Participant.HexRoundTrip | apps/backend/src/User.ts:31 | Parsing the hex text of `n` gives back `n`. |
| Participant.HexLength | apps/backend/src/User.ts:31 | A value below 16^k has at most k hex digits, so a colour has at most 6. |
| Participant.WhiteValue | apps/backend/src/User.ts:31 | `ffffff` denotes 16777215, the excluded upper bound. |
| Participant.ToJson | apps/backend/src/User.ts:36-43 | The JSON view carries exactly the user's id, position, colour and room. |
| Participant.ToJsonRoundTrip | apps/backend/src/User.ts:36-43 | The JSON view loses nothing but the socket: adding the socket back rebuilds the user, and two users that differ only in socket have the same view. |
| RoomRegistry.Find | apps/backend/src/roomManager.ts:51 | `Map.get` on a room: a hit is a member with that id; a miss means no member has it. |
| RoomRegistry.Put | apps/backend/src/roomManager.ts:18 | `Map.set`: the id now maps to the user and no other id changes. An existing id keeps its slot; a new id is appended. |
| RoomRegistry.Delete | apps/backend/src/roomManager.ts:26 | `Map.delete`: the members are exactly the old ones minus that id, and other ids are unaffected. An absent id changes nothing. |
| RoomRegistry.DeleteKeepsOrder | apps/backend/src/roomManager.ts:26 | In a room with unique ids, `delete` cuts the entry out at its position: the remaining members keep their insertion order. |
| RoomRegistry.PutKeepsDistinct | apps/backend/src/roomManager.ts:18 | A set into a room with distinct ids keeps the ids distinct. |
| RoomRegistry.DeleteKeepsDistinct | apps/backend/src/roomManager.ts:26 | A delete from a room with distinct ids keeps the ids distinct. |
| RoomRegistry.CreateRoom | apps/backend/src/roomManager.ts:5-10 | Afterwards the room exists. An existing room is untouched and a new one is empty. No other room changes. |
| RoomRegistry.CreateRoomIdempotent | apps/backend/src/roomManager.ts:5-10 | Creating a room twice is the same as creating it once. Both calls preserve registry validity. |
| RoomRegistry.IsRoomExists | apps/backend/src/roomManager.ts:11-13 | A room exists exactly when `createRoom` would leave the registry as it is. |
| RoomRegistry.GetPlayersInRoom | apps/backend/src/roomManager.ts:46-48 | The room's members in insertion order, or [] for a missing room. In a valid registry they have unique ids and all name this room. |
| RoomRegistry.GetUser | apps/backend/src/roomManager.ts:50-52 | Finds a user exactly when the room exists and holds that id. The user found is a member with that id. |
| RoomRegistry.JoinRoom | apps/backend/src/roomManager.ts:14-21 | On a missing room: returns null and changes nothing. On an existing room: stores the user under its id with `roomId` set to the room, leaves other members and rooms alone, returns the room's roster, and preserves validity. |
| RoomRegistry.JoinOrder | apps/backend/src/roomManager.ts:14-48 | The roster is in first-insertion order. A re-join keeps the member's slot; a new member goes last. |
| RoomRegistry.LeaveRoom | apps/backend/src/roomManager.ts:23-48 | On a missing room: nothing changes and the roster is []. Otherwise the user is removed and the room survives iff members remain. The returned roster is the post-removal membership in insertion order (the room with the user cut out), or [] once the room is deleted. Other rooms are untouched. An absent user in a non-empty room changes nothing. |
| RoomRegistry.UpdateUserPosition | apps/backend/src/roomManager.ts:34-44 | Only the named member's position changes; roster order and all other users and rooms stay as they were. A missing room or user makes it a no-op. |
| RoomRegistry.RemoveUserFromAllRooms | apps/backend/src/roomManager.ts:54-63 | Afterwards no room holds the user. Rooms that held the user lose only that member and are deleted exactly when emptied. Rooms that did not hold the user, empty ones included, survive unchanged. Validity is preserved. |
| Sessions.CreateSession | apps/backend/src/auth.ts:26-31 | The address maps to a session stamped `now`, overwriting any earlier one. Other addresses are untouched. |
| Sessions.CreateSessionRefreshes | apps/backend/src/auth.ts:26-31 | Re-creating a session moves its expiry window to the new time. |
| Sessions.VerifySession | apps/backend/src/auth.ts:33-44 | No session: false. An expired session (more than 86,400,000 ms old) is deleted and the answer is false. A live session leaves the store unchanged and is valid exactly when its stored address equals the queried one. Only the queried entry can change. |
| Sessions.SessionWindow | apps/backend/src/auth.ts:26-43 | A session stamped t verifies exactly for `now - t <= 86,400,000`. The bound itself is accepted; one millisecond later is refused. |
| Sessions.ExpiryIsFinal | apps/backend/src/auth.ts:38-41 | After an expired lookup, every later lookup is false until a new session is created. |
| Sessions.VerifySignature | apps/backend/src/auth.ts:16-24 | Accepts only when the crypto check returned valid; a thrown check yields false. |
| AccessGate.VerifyRoomAccess | apps/backend/src/utils.ts:4-20 | The store is left as the session check leaves it. Access needs a valid session. With a valid session, access is exactly the lookup's `true`; a thrown lookup means no access. |
| AccessGate.NoSessionIgnoresLedger | apps/backend/src/utils.ts:8-10 | Without a valid session the enrollment lookup's answer is irrelevant. |
| AccessGate.AccessCharacterised | apps/backend/src/utils.ts:8-19 | Access holds iff there is a live, matching session and the lookup answers `true`. |
| MountedServer.PostRoom | apps/backend/src/routes/metaverse-ws.ts:8-34 | The room is created before validation. The reply is never success: "Invalid room ID" for the empty id, "Room already exists" otherwise. |
| MountedServer.PostRoomReportsFailureForNewRoom | apps/backend/src/routes/metaverse-ws.ts:8-34 | Creating a brand-new room "7" in an empty registry replies "Room already exists". |
| MountedServer.PostRoomIntended | apps/backend/src/routes/metaverse-ws.ts:12-33 | The corrected handler succeeds exactly for a non-empty id not yet present. |
| MountedServer.JoinAction | apps/backend/src/routes/metaverse-ws.ts:84-114 | The session store is the access check's. When the gate refuses: only a "Access denied to this room" send. When the room is missing: nothing. Otherwise the connection subscribes and the room stores, under the user's id (overwriting any earlier entry), the user built from the message: its position when given, a fresh random colour, this room and this connection. No other room or member changes. One `join` publish names the user and room, carries the new user's colour and position, and carries the full roster. |
| MountedServer.Joiner | apps/backend/src/routes/metaverse-ws.ts:94-98 | The user the join builds has the message's id, the message's position when one is given, a colour drawn by `generateRandomColor` (the message's colour is ignored), the message's room and the sender's connection. |
| MountedServer.MoveAction | apps/backend/src/routes/metaverse-ws.ts:116-139 | Without a position, or for a non-member: dropped. Otherwise: the member's position is updated and one `move` publish carries the member's colour. |
| MountedServer.ChatAction | apps/backend/src/routes/metaverse-ws.ts:141-159 | Never changes the server. Publishes one `chat` frame with the member's colour exactly when the message is non-empty and the sender is a member. |
| MountedServer.LeaveAction | apps/backend/src/routes/metaverse-ws.ts:161-172 | Always unsubscribes and publishes one `leave` frame naming the leaver and the room, member or not. The frame's roster is the post-removal membership, which never contains the leaver. |
| MountedServer.Dispatch | apps/backend/src/routes/metaverse-ws.ts:71-177 | A message without user id or room id is dropped. Only `join` touches sessions. Chat and unknown actions leave the server and subscriptions alone. At most one output. |
| MountedServer.HandleMessage | apps/backend/src/routes/metaverse-ws.ts:84-92 | With the gate's Promise never awaited, no message ever yields a direct send. Whatever the enrollment lookup answers, a join leaves the rooms as a join whose lookup threw would. |
| MountedServer.JoinIgnoresDenial | apps/backend/src/routes/metaverse-ws.ts:85-92 | A join by a user with no session at all still enters an existing room. |
| MountedServer.HandleMessageAwaited | apps/backend/src/routes/metaverse-ws.ts:85-92 | With the gate awaited, a refused join sends exactly the denial and leaves rooms and subscriptions unchanged. |
| MountedServer.HandleMessageKeepsInvariants | apps/backend/src/routes/metaverse-ws.ts:71-177 | One message, gate awaited or not, keeps the registry invariant (user ids unique within a room, each member's `roomId` naming its room) and keeps every session stored under its own address. |
| MountedServer.ClosedParticipantLingers | apps/backend/src/routes/metaverse-ws.ts:182-186 | After a join, closing the connection leaves the user in the room's roster. |
| AuthorisedServer.PostAuth | apps/backend/src/metaverse.ts:10-18 | A session is opened for the address, with a success reply, iff the signature check accepts. Otherwise the store is unchanged and the reply is "Invalid signature". |
| AuthorisedServer.AuthOpensSession | apps/backend/src/metaverse.ts:13-15 | After a successful `/auth`, the address verifies for the next 24 hours. |
| AuthorisedServer.PostRoom | apps/backend/src/metaverse.ts:21-25 | Always replies success, after creating the room. |
| AuthorisedServer.PostRoomIdempotent | apps/backend/src/metaverse.ts:21-25 | Posting the same room twice equals posting it once, and both replies are success. |
| AuthorisedServer.JoinAction | apps/backend/src/metaverse.ts:86-100 | On a missing room: no change. Otherwise the connection subscribes and the room stores, under the user's id (overwriting any earlier entry), a default user with that connection, a random position and colour, and this room. No other room or member changes. One `join` publish names the user and room and carries the roster, but no colour or position. |
| AuthorisedServer.MoveAction | apps/backend/src/metaverse.ts:102-116 | With a position it publishes `move`, member or not; a non-member's move leaves the rooms unchanged. Without a position it is dropped. |
| AuthorisedServer.ChatAction | apps/backend/src/metaverse.ts:118-127 | Never changes the server. Publishes exactly when the message is non-empty, with no membership check. |
| AuthorisedServer.LeaveAction | apps/backend/src/metaverse.ts:129-140 | Always unsubscribes and publishes one `leave` frame naming the leaver and the room, with the post-removal roster. |
| AuthorisedServer.HandleMessage | apps/backend/src/metaverse.ts:64-145 | A message without user id or room id is dropped. Every other message runs the access check first. A denial, for any action, sends exactly one "Access denied" error with the user and room ids, and changes no room or subscription. A direct send only ever means denial. |
| AuthorisedServer.HandleMessageKeepsInvariants | apps/backend/src/metaverse.ts:64-145 | One message keeps the registry invariant (user ids unique within a room, each member's `roomId` naming its room) and keeps every session stored under its own address. |
| AuthorisedServer.DeniedMoveKeepsPositions | apps/backend/src/metaverse.ts:74-116 | A move by a user without access changes no member of any room. |
| Eduverse.NewIsValid | apps/contract/lib.rs:188-202 | A new contract satisfies every storage invariant, and no enrollment or completion holds in it. |
| Eduverse.VerifyEnrollment | apps/contract/lib.rs:529-535 | True exactly when the student is on the course's roster (`get_course_students`), and false for a course with no roster. |
| Eduverse.VerifyCompletion | apps/contract/lib.rs:538-542 | The recorded completion flag for the student and course, or false when none is recorded. |
| Eduverse.NextId | apps/contract/lib.rs:231-234 | The course counter steps by one and stops at `u32::MAX`. |
| Eduverse.CreateCourse | apps/contract/lib.rs:205-266 | A title over 100 bytes or a description over 1000 gives `InvalidInput`, checked first. Otherwise, unless `now < start < end`, `InvalidTime`. Any error leaves storage unchanged. On success: the id is the old counter; the course is stored with count 0, active, the caller as teacher and `now` as creation time; the id is appended to the caller's teacher list; nothing else changes. |
| Eduverse.CreateCoursePreservesInv | apps/contract/lib.rs:205-266 | `create_course` keeps the storage invariant. Below counter saturation it also keeps counts equal to roster lengths. |
| Eduverse.CreateCourseAtSaturation | apps/contract/lib.rs:230-257 | Once the counter sits at `u32::MAX`, a new course gets id `u32::MAX` again. It overwrites the stored course and resets its count to 0 while its roster stays, so counts stop matching rosters. |
| Eduverse.ApplyEdits | apps/contract/lib.rs:294-327 | The per-field edit fails only with `InvalidInput` (an over-long title or description, or a max below the current count). On success each of title, description, max, price, active flag and metadata hash takes the given value, or keeps the current one when none is given. It never changes id, teacher, times, count or creation time, and it keeps `enrolled_count <= max_students`. |
| Eduverse.UpdateCourse | apps/contract/lib.rs:270-336 | Checks run in order: `CourseNotFound`, `Unauthorized`, `CourseInProgress`, then the field checks. Any error leaves storage unchanged. Success writes exactly the edited course. |
| Eduverse.UpdateCoursePreservesInv | apps/contract/lib.rs:270-336 | `update_course` keeps the storage invariant and the count/roster agreement. |
| Eduverse.Enroll | apps/contract/lib.rs:341-396 | The errors, in precedence order: `CourseNotFound`, `CourseNotActive`, `CourseInProgress`, `CourseIsFull`, `AlreadyEnrolled`, `InsufficientPayment`, `PaymentFailed`. Any error leaves storage unchanged. Success requires the caller to be not yet enrolled. It appends the caller once to the course roster, appends the course to the caller's list, and increments the count, which never saturates here. Enrollment then holds. No other student's list, other course's roster or other storage changes. |
| Eduverse.EnrollPreservesInv | apps/contract/lib.rs:341-396 | `enroll` keeps the invariant: the count never exceeds the cap, rosters stay duplicate-free, the two enrollment lists stay in agreement, completions still need enrollment, and counts still match rosters. |
| Eduverse.EnrollTwice | apps/contract/lib.rs:359-362 | A second `enroll` by the same caller, before the start and with room left, fails with `AlreadyEnrolled` and changes nothing. |
| Eduverse.RecordCertificate | apps/contract/lib.rs:475-497 | A minted certificate's info is stored under its id, and the id is appended to the student's certificate list. Nothing else changes. |
| Eduverse.CompleteCourse | apps/contract/lib.rs:400-459 | Checks run in order: `CourseNotFound`, `Unauthorized`, `NotEnrolled`, `CourseInProgress` (before the end time); each leaves storage unchanged. It succeeds iff all pass and the mint succeeds. Success sets the `(course, student)` completion flag, stores the certificate's info and appends its id to the student's list; every other completion flag, course, enrollment list and teacher list stays as it was. A failed mint returns `NFTMintingFailed` over storage that differs only by that completion flag. |
| Eduverse.CompletionOnChain | apps/contract/lib.rs:400-459 | Once ink! reverts `Err` results, completion becomes true exactly through a successful `complete_course`. A failed mint leaves no trace, although the function body alone had written the flag. |
| Eduverse.CompleteCoursePreservesInv | apps/contract/lib.rs:400-459 | `complete_course` keeps the storage invariant and the count/roster agreement, even on its failed-mint path. |
| Eduverse.StoredBelow | apps/contract/lib.rs:574-582 | The ids `get_courses` visits and finds are exactly the stored ones below the bound, in strictly ascending order. |
| Eduverse.GetCourses | apps/contract/lib.rs:574-582 | Lists, by ascending id, exactly the stored courses whose id is below the counter, each once. |
| Eduverse.ListedCoursesAscending | apps/contract/lib.rs:574-582 | Under the invariant, the listed courses' own ids ascend and stay below the counter. A course stored at the saturated id `u32::MAX` is never listed. |
| Eduverse.Transfer | apps/contract/lib.rs:627-632 | Every certificate transfer fails with `Custom("Certificates cannot be transferred")` and changes nothing. |

## Left out

- Transport: Elysia/Bun subscribe, publish and send delivery, including whether a publish reaches its sender. These are only abstract outputs plus a set of subscribed topics.
- Concurrency: the `await` in `metaverse.ts` and interleaving between connections. Each message is one atomic step.
- Randomness and floating point: `Math.random` draws are parameters in [0,1), and positions are reals. The order of the draws (x, y, then colour) is fixed, but IEEE rounding is not modelled.
- The clock: `Date.now()` is a parameter.
- The `/room` bodies whose `roomId` is missing or not a string are not modelled; the model takes a string, so only the empty-string case of "Invalid room ID" appears.
- Message-shape validation by the schema: an unknown action is modelled as `Unknown` and changes nothing. The `color` field the mounted join reads from `data` is ignored by `User` anyway.
- `signatureVerify` and its cryptography: an oracle that answers valid, invalid or throws.
- `checkEnrollment` (`apps/backend/src/verify-enrollment.ts`), the ledger query: an oracle answering true, false or throws. The real wrapper returns the query's `success` flag rather than the boolean it fetched, so the enrollment answer modelled here is whatever that wrapper yields. `Number(roomId)` parsing is inside that oracle.
- `sendMessage` on `User`: socket I/O.
- Eduverse.CompleteCourse: the certificate id is an opaque input. The Blake2x128 hash of course id, student and time is not modelled, and neither are the PSP34 mint's internals, which become a success flag.
- The certificate `attributes` mapping (byte encodings of title, id and date) and its reader `get_certificate_attribute`, and every contract event: not modelled, because they only record certificate metadata and notifications, which no other modelled message reads.
- The PSP34 queries `balance_of`, `owner_of`, `allowance`, `total_supply` and `collection_id`, and the state-changing message `approve`: not modelled, because they read or write the PSP34 token data, whose internals are not part of this model.
- `get_course` (an `Option` of the stored course) and `verify_certificate` (the stored certificate info, or `Err(NFTMintingFailed)` for an unknown id): both are plain reads of storage with no counterpart in this model.
- The list getters `get_student_courses`, `get_teacher_courses`, `get_course_students` and `get_student_certificate_vector`: each reads a list with an empty default. They appear as `StudentCourses`, `TeacherCourses`, `CourseStudents` and `ListOr`.
- The web UI, the upload proxy, the chain-client setup and `apps/web/src/lib/utils.ts`: rendering, network clients and float formatting.

## Findings

| source | as written | input that shows it | evidently intended | confidence | as-written member | corrected member |
|---|---|---|---|---|---|---|
| apps/backend/src/routes/metaverse-ws.ts:10-25 | `createRoom` runs before the existence check, so the check always sees the room and the success branch is unreachable | `POST /room {roomId: "7"}` on an empty registry replies `{success:false, error:"Room already exists"}` | success for a new non-empty id, "Room already exists" only for an existing one | not executed | MountedServer.PostRoom, MountedServer.PostRoomReportsFailureForNewRoom | MountedServer.PostRoomIntended |
| apps/backend/src/routes/metaverse-ws.ts:85-92 | `verifyRoomAccess` is called without `await`; its Promise is always truthy, so the denial branch is dead | a `join` for a user with no session, on an existing room, enters the room | refuse the join with "Access denied to this room" when access is not granted | not executed | MountedServer.HandleMessage, MountedServer.JoinIgnoresDenial | MountedServer.HandleMessageAwaited |

=== FILE: access.dfy ===
/**
 * The room access gate: a valid session, then the enrollment ledger's answer.
 * Models apps/backend/src/utils.ts. The ledger query (`checkEnrollment`, on
 * `Number(roomId)`) is an oracle whose outcome is a parameter.
 */
module AccessGate {
  import opened Sessions

  /** How the enrollment query settled: resolved with an answer, or rejected. */
  datatype EnrollmentAnswer = Answered(enrolled: bool) | Rejected

  /**
   * The gate's verdict and the session store afterwards: the session lookup
   * deletes an expired session, so the gate is not read-only.
   */
  datatype Access = Access(store: Store, granted: bool)

  /** `verifyRoomAccess`: never rejects; any failure is a denial. */
  function VerifyRoomAccess(s: Store, userId: string, roomId: string, now: int, ledger: EnrollmentAnswer): (a: Access)
    ensures a.store == VerifySession(s, userId, now).store
    ensures a.granted ==> VerifySession(s, userId, now).valid
    ensures VerifySession(s, userId, now).valid ==> (a.granted <==> ledger == Answered(true))
  {
    var v := VerifySession(s, userId, now);
    if !v.valid then Access(v.store, false)
    else
      match ledger
      case Answered(enrolled) => Access(v.store, enrolled)
      case Rejected => Access(v.store, false)
  }

  /** Without a valid session the ledger is never consulted: its answer cannot matter. */
  lemma NoSessionIgnoresLedger(s: Store, userId: string, roomId: string, now: int, l1: EnrollmentAnswer, l2: EnrollmentAnswer)
    requires !VerifySession(s, userId, now).valid
    ensures VerifyRoomAccess(s, userId, roomId, now, l1) == VerifyRoomAccess(s, userId, roomId, now, l2)
    ensures !VerifyRoomAccess(s, userId, roomId, now, l1).granted
  {
  }

  /** Access is granted exactly for a live session whose holder the ledger reports enrolled. */
  lemma AccessCharacterised(s: Store, userId: string, roomId: string, now: int, ledger: EnrollmentAnswer)
    requires Consistent(s)
    ensures VerifyRoomAccess(s, userId, roomId, now, ledger).granted
        <==> userId in s && !Expired(s[userId], now) && ledger == Answered(true)
  {
  }
}

=== FILE: authorised.dfy ===
/**
 * The variant of the room server that re-authorises every action:
 * `POST /auth`, `POST /room` and the `/metaverse` WebSocket handler.
 * Models apps/backend/src/metaverse.ts. Each message is one atomic step;
 * the clock, the signature check, the ledger answer and the random draws
 * are parameters.
 */
module AuthorisedServer {
  import opened Base
  import opened Participant
  import opened RoomRegistry
  import opened Sessions
  import opened AccessGate
  import opened Protocol

  datatype AuthReply = AuthReply(success: bool, error: Option<string>)

  datatype AuthResponse = AuthResponse(store: Store, reply: AuthReply)

  /** `POST /auth`: a session is opened exactly when the signature verifies. */
  function PostAuth(s: Store, address: string, check: SignatureCheck, now: int): (o: AuthResponse)
    ensures o.reply.success <==> check == Checked(true)
    ensures o.reply.success ==> o.store == CreateSession(s, address, now)
    ensures !o.reply.success ==> o.store == s && o.reply.error == Some("Invalid signature")
    ensures Consistent(s) ==> Consistent(o.store)
  {
    if VerifySignature(check) then AuthResponse(CreateSession(s, address, now), AuthReply(true, None))
    else AuthResponse(s, AuthReply(false, Some("Invalid signature")))
  }

  /** After a successful `/auth` the address's session is valid for 24 hours. */
  lemma AuthOpensSession(s: Store, address: string, now: int, later: int)
    requires now <= later <= now + SESSION_TTL_MS
    ensures VerifySession(PostAuth(s, address, Checked(true), now).store, address, later).valid
  {
  }

  /** `POST /room`: always succeeds, and is idempotent through `createRoom`. */
  function PostRoom(reg: Registry, roomId: string): (o: RoomResponse)
    ensures o.reply.success
    ensures roomId in o.registry
    ensures roomId in reg ==> o.registry == reg
    ensures o.registry == CreateRoom(reg, roomId)
  {
    RoomResponse(CreateRoom(reg, roomId), RoomReply(true, None, None))
  }

  lemma PostRoomIdempotent(reg: Registry, roomId: string)
    ensures PostRoom(PostRoom(reg, roomId).registry, roomId) == PostRoom(reg, roomId)
  {
  }

  /** The reply to an action the gate refuses. */
  function Denied(userId: string, roomId: string): Frame
  {
    Frame("error", Some(userId), Some(roomId), Some("Access denied"), None, None, None)
  }

  /**
   * `join`: a default user (room `lobby` until `joinRoom` sets it); on a missing
   * room nothing is subscribed or published.
   */
  function JoinAction(srv: Server, subs: set<string>, conn: ConnId, uid: string, rid: string, d: Draws): (st: Step)
    requires ValidDraws(d)
    ensures st.server.sessions == srv.sessions
    ensures rid !in srv.rooms ==> st == Step(srv, subs, [])
    ensures rid in srv.rooms ==>
      && st.subscriptions == subs + {rid}
      && st.server.rooms.Keys == srv.rooms.Keys
      && (forall k :: k in srv.rooms && k != rid ==> st.server.rooms[k] == srv.rooms[k])
      && GetUser(st.server.rooms, rid, uid) == Some(NewUser(uid, conn, UserOptions(None, None, None), d).(roomId := rid))
      && (forall id :: id != uid ==> GetUser(st.server.rooms, rid, id) == GetUser(srv.rooms, rid, id))
      && |st.outputs| == 1 && st.outputs[0].Publish? && st.outputs[0].topic == rid
      && st.outputs[0].frame.action == "join"
      && st.outputs[0].frame.userId == Some(uid) && st.outputs[0].frame.roomId == Some(rid)
      && st.outputs[0].frame.users == Some(Roster(st.server.rooms[rid]))
      && st.outputs[0].frame.color.None? && st.outputs[0].frame.position.None?
  {
    var user := NewUser(uid, conn, UserOptions(None, None, None), d);
    var joined := JoinRoom(srv.rooms, rid, user);
    if joined.roster.None? then Step(srv, subs, [])
    else
      Step(srv.(rooms := joined.registry), subs + {rid},
           [Publish(rid, Frame("join", Some(uid), Some(rid), Some("User " + uid + " joined"), None, None,
                               Some(Roster(joined.roster.value))))])
  }

  /** `move`: with a position, updates it if the sender is a member, and publishes either way. */
  function MoveAction(srv: Server, subs: set<string>, uid: string, rid: string, position: Option<Position>): (st: Step)
    ensures st.subscriptions == subs && st.server.sessions == srv.sessions
    ensures position.None? ==> st == Step(srv, subs, [])
    ensures position.Some? ==>
      && st.server.rooms == UpdateUserPosition(srv.rooms, rid, uid, position.value)
      && st.outputs == [Publish(rid, Frame("move", Some(uid), Some(rid), None, position, None, None))]
    ensures position.Some? && GetUser(srv.rooms, rid, uid).None? ==> st.server.rooms == srv.rooms
    ensures position.Some? && GetUser(srv.rooms, rid, uid).Some? ==>
      GetUser(st.server.rooms, rid, uid) == Some(GetUser(srv.rooms, rid, uid).value.(position := position.value))
  {
    if position.None? then Step(srv, subs, [])
    else
      Step(srv.(rooms := UpdateUserPosition(srv.rooms, rid, uid, position.value)), subs,
           [Publish(rid, Frame("move", Some(uid), Some(rid), None, position, None, None))])
  }

  /** `chat`: never touches the registry; relays any non-empty message, member or not. */
  function ChatAction(srv: Server, subs: set<string>, uid: string, rid: string, message: Option<string>): (st: Step)
    ensures st.server == srv && st.subscriptions == subs
    ensures st.outputs != [] <==> Truthy(message)
    ensures Truthy(message) ==> st.outputs == [Publish(rid, Frame("chat", Some(uid), Some(rid), message, None, None, None))]
  {
    if !Truthy(message) then Step(srv, subs, [])
    else Step(srv, subs, [Publish(rid, Frame("chat", Some(uid), Some(rid), message, None, None, None))])
  }

  /** `leave`: remove, unsubscribe and publish the roster after the removal. */
  function LeaveAction(srv: Server, subs: set<string>, uid: string, rid: string): (st: Step)
    ensures st.server.rooms == LeaveRoom(srv.rooms, rid, uid).registry
    ensures st.server.sessions == srv.sessions
    ensures st.subscriptions == subs - {rid}
    ensures |st.outputs| == 1 && st.outputs[0].Publish? && st.outputs[0].topic == rid
    ensures st.outputs[0].frame.action == "leave" && st.outputs[0].frame.userId == Some(uid)
    ensures st.outputs[0].frame.roomId == Some(rid)
    ensures st.outputs[0].frame.users == Some(Roster(GetPlayersInRoom(st.server.rooms, rid)))
  {
    var left := LeaveRoom(srv.rooms, rid, uid);
    Step(srv.(rooms := left.registry), subs - {rid},
         [Publish(rid, Frame("leave", Some(uid), Some(rid), Some("User " + uid + " left"), None, None,
                             Some(Roster(left.roster))))])
  }

  /**
   * The `message` handler: shape check, then the access gate for every
   * action, then the action itself.
   */
  function HandleMessage(srv: Server, subs: set<string>, conn: ConnId, msg: Inbound,
                         now: int, ledger: EnrollmentAnswer, d: Draws): (st: Step)
    requires ValidDraws(d)
    ensures !Addressed(msg) ==> st == Step(srv, subs, [])
    ensures Addressed(msg) ==>
      st.server.sessions == VerifyRoomAccess(srv.sessions, msg.data.value.userId.value, msg.data.value.roomId.value, now, ledger).store
    ensures Addressed(msg)
            && !VerifyRoomAccess(srv.sessions, msg.data.value.userId.value, msg.data.value.roomId.value, now, ledger).granted ==>
      && st.server.rooms == srv.rooms
      && st.subscriptions == subs
      && st.outputs == [Send(Denied(msg.data.value.userId.value, msg.data.value.roomId.value))]
    ensures (exists o :: o in st.outputs && o.Send?) ==>
      Addressed(msg)
      && !VerifyRoomAccess(srv.sessions, msg.data.value.userId.value, msg.data.value.roomId.value, now, ledger).granted
    ensures msg.action in {Chat, Unknown} ==> st.server.rooms == srv.rooms && st.subscriptions == subs
  {
    if !Addressed(msg) then Step(srv, subs, [])
    else
      var data := msg.data.value;
      var uid := data.userId.value;
      var rid := data.roomId.value;
      var access := VerifyRoomAccess(srv.sessions, uid, rid, now, ledger);
      var srv1 := srv.(sessions := access.store);
      if !access.granted then Step(srv1, subs, [Send(Denied(uid, rid))])
      else
        match msg.action
        case Join => JoinAction(srv1, subs, conn, uid, rid, d)
        case Move => MoveAction(srv1, subs, uid, rid, data.position)
        case Chat => ChatAction(srv1, subs, uid, rid, data.message)
        case Leave => LeaveAction(srv1, subs, uid, rid)
        case Unknown => Step(srv1, subs, [])
  }

  /** A refused `move` never changes anybody's position. */
  lemma DeniedMoveKeepsPositions(srv: Server, subs: set<string>, conn: ConnId, data: MessageData,
                                 now: int, ledger: EnrollmentAnswer, d: Draws, rid: string, uid: string)
    requires ValidDraws(d) && Truthy(data.userId) && Truthy(data.roomId)
    requires !VerifyRoomAccess(srv.sessions, data.userId.value, data.roomId.value, now, ledger).granted
    ensures GetUser(HandleMessage(srv, subs, conn, Inbound(Move, Some(data)), now, ledger, d).server.rooms, rid, uid)
         == GetUser(srv.rooms, rid, uid)
  {
  }

  /**
   * One message keeps the registry invariant (unique ids per room, each
   * member naming its room) and a consistent session store.
   */
  lemma HandleMessageKeepsInvariants(srv: Server, subs: set<string>, conn: ConnId, msg: Inbound,
                                     now: int, ledger: EnrollmentAnswer, d: Draws)
    requires ValidDraws(d)
    ensures Valid(srv.rooms) ==> Valid(HandleMessage(srv, subs, conn, msg, now, ledger, d).server.rooms)
    ensures Consistent(srv.sessions) ==> Consistent(HandleMessage(srv, subs, conn, msg, now, ledger, d).server.sessions)
  {
  }
}

=== FILE: base.dfy ===
/** Small failure-compatible wrappers shared by every module of the model. */
module Base {

  /** A value that may be absent (`undefined`/`null` in the server, `Option` in the contract). */
  datatype Option<+T> = None | Some(value: T)

  /** The outcome of a contract message: a value or one error of a closed enum. */
  datatype Result<+T, +E> = Ok(value: T) | Err(error: E)

  /** JavaScript truthiness of an optional string field: present and not the empty string. */
  predicate Truthy(s: Option<string>)
  {
    s.Some? && s.value != ""
  }
}

=== FILE: eduverse.dfy ===
/**
 * The course marketplace contract: courses, enrollments, completions and
 * non-transferable certificates. Models apps/contract/lib.rs.
 *
 * Each message is a pure function of the storage and an environment (caller,
 * block timestamp, transferred value) returning the storage it writes and its
 * `Result`. The payout to the teacher, the certificate id (a Blake2 hash) and
 * the PSP34 mint are oracles whose outcomes are parameters. ink! reverts the
 * storage writes of a message that returns `Err`; `Committed` applies that
 * rule to a message's outcome.
 */
module Eduverse {
  import opened Base

  const U32_MAX: int := 0xFFFF_FFFF

  type u32 = x: int | 0 <= x <= U32_MAX

  type byte = x: int | 0 <= x < 0x100

  /** A Rust `String` as its UTF-8 bytes: `len()` counts bytes. */
  type Bytes = seq<byte>

  type AccountId = nat

  type Timestamp = nat

  type Balance = nat

  /** A certificate's PSP34 token id; derived by hashing, treated as opaque. */
  type CertificateId = nat

  const MAX_TITLE_BYTES: int := 100

  const MAX_DESCRIPTION_BYTES: int := 1000

  datatype Course = Course(
    id: u32,
    teacher: AccountId,
    title: Bytes,
    description: Bytes,
    maxStudents: u32,
    enrolledCount: u32,
    startTime: Timestamp,
    endTime: Timestamp,
    price: Balance,
    active: bool,
    metadataHash: Bytes,
    createdAt: Timestamp)

  datatype CertificateInfo = CertificateInfo(courseId: u32, courseTitle: Bytes, student: AccountId, completionDate: Timestamp)

  /** The PSP34 error this contract produces; the crate's other variants are not part of this model. */
  datatype Psp34Error = Custom(message: string)

  /** The contract's closed error enum, in declaration order. */
  datatype Error =
    | CourseNotActive | NotOwner | NotTeacher | NotStudent | CourseNotFound | CourseInactive
    | CourseFull | CourseNotStarted | CourseEnded | AlreadyEnrolled | NotEnrolled
    | InsufficientPayment | InvalidInput | InvalidTime | AlreadyCompleted | CertificateNotFound
    | TransferError | PSP34Error(inner: Psp34Error) | CourseIsFull | CourseInProgress
    | Unauthorized | NFTMintingFailed | PaymentFailed | RefundPeriodEnded
    | InvalidFeePercentage | NoRefundAvailable

  /** Contract storage; a `Mapping` is a `map`, a missing key reads as the default. */
  datatype Contract = Contract(
    courseCounter: u32,
    courses: map<u32, Course>,
    studentEnrollments: map<AccountId, seq<u32>>,
    teacherCourses: map<AccountId, seq<u32>>,
    courseStudents: map<u32, seq<AccountId>>,
    courseCompletions: map<(u32, AccountId), bool>,
    owner: AccountId,
    certificateInfo: map<CertificateId, CertificateInfo>,
    studentCertificates: map<AccountId, seq<CertificateId>>)

  /** What a message reads from its environment. */
  datatype Env = Env(caller: AccountId, now: Timestamp, transferred: Balance)

  /** The storage a message leaves and the value it returns. */
  datatype Outcome<T> = Outcome(state: Contract, result: Result<T, Error>)

  /** The constructor `new`. */
  function New(caller: AccountId): Contract
  {
    Contract(0, map[], map[], map[], map[], map[], caller, map[], map[])
  }

  /** ink!'s rule for a message returning `Result`: an `Err` reverts every storage write. */
  function Committed<T>(before: Contract, o: Outcome<T>): Contract
  {
    if o.result.Err? then before else o.state
  }

  /** `mapping.get(k).unwrap_or_default()` for the list-valued mappings. */
  function ListOr<K, V>(m: map<K, seq<V>>, k: K): seq<V>
  {
    if k in m then m[k] else []
  }

  function CourseStudents(s: Contract, courseId: u32): seq<AccountId>
  {
    ListOr(s.courseStudents, courseId)
  }

  function StudentCourses(s: Contract, student: AccountId): seq<u32>
  {
    ListOr(s.studentEnrollments, student)
  }

  function TeacherCourses(s: Contract, teacher: AccountId): seq<u32>
  {
    ListOr(s.teacherCourses, teacher)
  }

  /** `verify_enrollment`: the student is on the roster `get_course_students` returns. */
  function VerifyEnrollment(s: Contract, student: AccountId, courseId: u32): (b: bool)
    ensures b <==> student in CourseStudents(s, courseId)
  {
    courseId in s.courseStudents && student in s.courseStudents[courseId]
  }

  /** `verify_completion`: the completion flag, false when absent. */
  function VerifyCompletion(s: Contract, student: AccountId, courseId: u32): (b: bool)
    ensures (courseId, student) !in s.courseCompletions ==> !b
    ensures (courseId, student) in s.courseCompletions ==> (b <==> s.courseCompletions[(courseId, student)])
  {
    (courseId, student) in s.courseCompletions && s.courseCompletions[(courseId, student)]
  }

  predicate NoDuplicates<T(==)>(xs: seq<T>)
  {
    forall i, j :: 0 <= i < j < |xs| ==> xs[i] != xs[j]
  }

  /** The course appears in the student's own enrollment list. */
  predicate ListedForStudent(s: Contract, student: AccountId, courseId: u32)
  {
    student in s.studentEnrollments && courseId in s.studentEnrollments[student]
  }

  /**
   * What every message keeps: a course is stored under its id and never over
   * capacity; ids were handed out by the counter; rosters are duplicate-free
   * and belong to stored courses; the student-side and course-side enrollment
   * lists agree; a completion needs an enrollment.
   */
  ghost predicate Inv(s: Contract)
  {
    && (forall k :: k in s.courses ==> s.courses[k].id == k && s.courses[k].enrolledCount <= s.courses[k].maxStudents)
    && (forall k :: k in s.courses ==> k < s.courseCounter || k == s.courseCounter == U32_MAX)
    && (forall k :: k in s.courseStudents ==> k in s.courses && NoDuplicates(s.courseStudents[k]))
    && (forall a, k :: ListedForStudent(s, a, k) <==> VerifyEnrollment(s, a, k))
    && (forall a, k :: VerifyCompletion(s, a, k) ==> VerifyEnrollment(s, a, k))
  }

  /** `enrolled_count` is the length of the course's roster. */
  predicate CountsMatch(s: Contract)
  {
    forall k :: k in s.courses ==> s.courses[k].enrolledCount == |CourseStudents(s, k)|
  }

  lemma NewIsValid(caller: AccountId)
    ensures Inv(New(caller)) && CountsMatch(New(caller))
    ensures forall a, k :: !VerifyEnrollment(New(caller), a, k) && !VerifyCompletion(New(caller), a, k)
  {
  }

  // ---------------------------------------------------------------------
  // create_course
  // ---------------------------------------------------------------------

  predicate LengthsOk(title: Bytes, description: Bytes)
  {
    |title| <= MAX_TITLE_BYTES && |description| <= MAX_DESCRIPTION_BYTES
  }

  /** `checked_add(1).unwrap_or(counter)`: the counter stops at `u32::MAX`. */
  function NextId(counter: u32): (n: u32)
    ensures counter < U32_MAX ==> n == counter + 1
    ensures counter == U32_MAX ==> n == counter
  {
    if counter < U32_MAX then counter + 1 else counter
  }

  function CreateCourse(s: Contract, env: Env, title: Bytes, description: Bytes, maxStudents: u32,
                        startTime: Timestamp, endTime: Timestamp, price: Balance, metadataHash: Bytes): (o: Outcome<u32>)
    ensures o.result.Err? ==> o.state == s
    ensures !LengthsOk(title, description) ==> o.result == Err(InvalidInput)
    ensures LengthsOk(title, description) && (startTime <= env.now || endTime <= startTime) ==> o.result == Err(InvalidTime)
    ensures o.result.Ok? <==> LengthsOk(title, description) && env.now < startTime < endTime
    ensures o.result.Ok? ==>
      var id := o.result.value;
      && id == s.courseCounter
      && o.state.courseCounter == NextId(s.courseCounter)
      && o.state.courses == s.courses[id := Course(id, env.caller, title, description, maxStudents, 0,
                                                   startTime, endTime, price, true, metadataHash, env.now)]
      && TeacherCourses(o.state, env.caller) == TeacherCourses(s, env.caller) + [id]
      && (forall t :: t != env.caller ==> TeacherCourses(o.state, t) == TeacherCourses(s, t))
      && o.state.(courseCounter := s.courseCounter, courses := s.courses, teacherCourses := s.teacherCourses) == s
  {
    if !LengthsOk(title, description) then Outcome(s, Err(InvalidInput))
    else if startTime <= env.now || endTime <= startTime then Outcome(s, Err(InvalidTime))
    else
      var id := s.courseCounter;
      var course := Course(id, env.caller, title, description, maxStudents, 0,
                           startTime, endTime, price, true, metadataHash, env.now);
      Outcome(s.(courseCounter := NextId(id),
                 courses := s.courses[id := course],
                 teacherCourses := s.teacherCourses[env.caller := TeacherCourses(s, env.caller) + [id]]),
              Ok(id))
  }

  lemma CreateCoursePreservesInv(s: Contract, env: Env, title: Bytes, description: Bytes, maxStudents: u32,
                                 startTime: Timestamp, endTime: Timestamp, price: Balance, metadataHash: Bytes)
    requires Inv(s)
    ensures Inv(CreateCourse(s, env, title, description, maxStudents, startTime, endTime, price, metadataHash).state)
    ensures CountsMatch(s) && s.courseCounter < U32_MAX ==>
      CountsMatch(CreateCourse(s, env, title, description, maxStudents, startTime, endTime, price, metadataHash).state)
  {
    var o := CreateCourse(s, env, title, description, maxStudents, startTime, endTime, price, metadataHash);
    if o.result.Ok? {
      var t := o.state;
      assert forall a, k :: ListedForStudent(t, a, k) == ListedForStudent(s, a, k);
      assert forall a, k :: VerifyEnrollment(t, a, k) == VerifyEnrollment(s, a, k);
      assert forall a, k :: VerifyCompletion(t, a, k) == VerifyCompletion(s, a, k);
    }
  }

  /**
   * Once the counter has reached `u32::MAX`, a new course reuses id
   * `u32::MAX` and overwrites the course stored there: its count restarts at
   * zero while its roster is kept.
   */
  lemma CreateCourseAtSaturation(s: Contract, env: Env, title: Bytes, description: Bytes, maxStudents: u32,
                                 startTime: Timestamp, endTime: Timestamp, price: Balance, metadataHash: Bytes)
    requires s.courseCounter == U32_MAX && U32_MAX in s.courses && CourseStudents(s, U32_MAX) != []
    requires LengthsOk(title, description) && env.now < startTime < endTime
    ensures var o := CreateCourse(s, env, title, description, maxStudents, startTime, endTime, price, metadataHash);
      && o.result == Ok(U32_MAX)
      && o.state.courseCounter == U32_MAX
      && o.state.courses[U32_MAX].enrolledCount == 0
      && CourseStudents(o.state, U32_MAX) == CourseStudents(s, U32_MAX)
      && !CountsMatch(o.state)
  {
  }

  // ---------------------------------------------------------------------
  // update_course
  // ---------------------------------------------------------------------

  /** The optional arguments of `update_course`. */
  datatype CourseEdits = CourseEdits(
    title: Option<Bytes>,
    description: Option<Bytes>,
    maxStudents: Option<u32>,
    price: Option<Balance>,
    active: Option<bool>,
    metadataHash: Option<Bytes>)

  /** The given value when an edit supplies one, the current value otherwise. */
  function Pick<T>(o: Option<T>, current: T): (v: T)
    ensures o.Some? ==> v == o.value
    ensures o.None? ==> v == current
  {
    if o.Some? then o.value else current
  }

  predicate EditsOk(c: Course, e: CourseEdits)
  {
    && (e.title.None? || |e.title.value| <= MAX_TITLE_BYTES)
    && (e.description.None? || |e.description.value| <= MAX_DESCRIPTION_BYTES)
    && (e.maxStudents.None? || e.maxStudents.value >= c.enrolledCount)
  }

  /** The per-field checks and assignments of `update_course`, on a copy of the course. */
  function ApplyEdits(c: Course, e: CourseEdits): (r: Result<Course, Error>)
    ensures r.Err? ==> r.error == InvalidInput
    ensures r.Ok? <==> EditsOk(c, e)
    ensures r.Ok? ==>
      && r.value.id == c.id && r.value.teacher == c.teacher
      && r.value.startTime == c.startTime && r.value.endTime == c.endTime
      && r.value.enrolledCount == c.enrolledCount && r.value.createdAt == c.createdAt
    ensures r.Ok? && c.enrolledCount <= c.maxStudents ==> r.value.enrolledCount <= r.value.maxStudents
    ensures r.Ok? ==>
      && r.value.title == Pick(e.title, c.title)
      && r.value.description == Pick(e.description, c.description)
      && r.value.maxStudents == Pick(e.maxStudents, c.maxStudents)
      && r.value.price == Pick(e.price, c.price)
      && r.value.active == Pick(e.active, c.active)
      && r.value.metadataHash == Pick(e.metadataHash, c.metadataHash)
  {
    if e.title.Some? && |e.title.value| > MAX_TITLE_BYTES then Err(InvalidInput)
    else if e.description.Some? && |e.description.value| > MAX_DESCRIPTION_BYTES then Err(InvalidInput)
    else if e.maxStudents.Some? && e.maxStudents.value < c.enrolledCount then Err(InvalidInput)
    else Ok(c.(title := Pick(e.title, c.title),
               description := Pick(e.description, c.description),
               maxStudents := Pick(e.maxStudents, c.maxStudents),
               price := Pick(e.price, c.price),
               active := Pick(e.active, c.active),
               metadataHash := Pick(e.metadataHash, c.metadataHash)))
  }

  function UpdateCourse(s: Contract, env: Env, courseId: u32, e: CourseEdits): (o: Outcome<()>)
    ensures o.result.Err? ==> o.state == s
    ensures courseId !in s.courses ==> o.result == Err(CourseNotFound)
    ensures courseId in s.courses && env.caller != s.courses[courseId].teacher ==> o.result == Err(Unauthorized)
    ensures courseId in s.courses && env.caller == s.courses[courseId].teacher && env.now >= s.courses[courseId].startTime ==>
      o.result == Err(CourseInProgress)
    ensures courseId in s.courses && env.caller == s.courses[courseId].teacher && env.now < s.courses[courseId].startTime ==>
      (o.result.Ok? <==> EditsOk(s.courses[courseId], e)) && (o.result.Err? ==> o.result.error == InvalidInput)
    ensures o.result.Ok? ==>
      && courseId in s.courses
      && o.state == s.(courses := s.courses[courseId := ApplyEdits(s.courses[courseId], e).value])
  {
    if courseId !in s.courses then Outcome(s, Err(CourseNotFound))
    else
      var c := s.courses[courseId];
      if env.caller != c.teacher then Outcome(s, Err(Unauthorized))
      else if env.now >= c.startTime then Outcome(s, Err(CourseInProgress))
      else
        match ApplyEdits(c, e)
        case Err(err) => Outcome(s, Err(err))
        case Ok(edited) => Outcome(s.(courses := s.courses[courseId := edited]), Ok(()))
  }

  lemma UpdateCoursePreservesInv(s: Contract, env: Env, courseId: u32, e: CourseEdits)
    requires Inv(s)
    ensures Inv(UpdateCourse(s, env, courseId, e).state)
    ensures CountsMatch(s) ==> CountsMatch(UpdateCourse(s, env, courseId, e).state)
  {
    var o := UpdateCourse(s, env, courseId, e);
    if o.result.Ok? {
      var t := o.state;
      assert forall a, k :: ListedForStudent(t, a, k) == ListedForStudent(s, a, k);
      assert forall a, k :: VerifyEnrollment(t, a, k) == VerifyEnrollment(s, a, k);
      assert forall a, k :: VerifyCompletion(t, a, k) == VerifyCompletion(s, a, k);
    }
  }

  // ---------------------------------------------------------------------
  // enroll
  // ---------------------------------------------------------------------

  /** The course accepts enrollments: active, not yet started and below capacity. */
  predicate Open(c: Course, now: Timestamp)
  {
    c.active && now < c.startTime && c.enrolledCount < c.maxStudents
  }

  /** `enroll`; `paid` is whether the transfer of the price to the teacher succeeded. */
  function Enroll(s: Contract, env: Env, courseId: u32, paid: bool): (o: Outcome<()>)
    ensures o.result.Err? ==> o.state == s
    ensures courseId !in s.courses ==> o.result == Err(CourseNotFound)
    ensures courseId in s.courses ==>
      var c := s.courses[courseId];
      && (!c.active ==> o.result == Err(CourseNotActive))
      && (c.active && env.now >= c.startTime ==> o.result == Err(CourseInProgress))
      && (c.active && env.now < c.startTime && c.enrolledCount >= c.maxStudents ==> o.result == Err(CourseIsFull))
      && (Open(c, env.now) && VerifyEnrollment(s, env.caller, courseId) ==> o.result == Err(AlreadyEnrolled))
      && (Open(c, env.now) && !VerifyEnrollment(s, env.caller, courseId) && env.transferred < c.price ==>
            o.result == Err(InsufficientPayment))
      && (Open(c, env.now) && !VerifyEnrollment(s, env.caller, courseId) && env.transferred >= c.price && !paid ==>
            o.result == Err(PaymentFailed))
      && (Open(c, env.now) && !VerifyEnrollment(s, env.caller, courseId) && env.transferred >= c.price && paid ==>
            o.result.Ok?)
    ensures o.result.Ok? ==>
      && courseId in s.courses
      && !VerifyEnrollment(s, env.caller, courseId)
      && VerifyEnrollment(o.state, env.caller, courseId)
      && CourseStudents(o.state, courseId) == CourseStudents(s, courseId) + [env.caller]
      && StudentCourses(o.state, env.caller) == StudentCourses(s, env.caller) + [courseId]
      && o.state.courseStudents == s.courseStudents[courseId := CourseStudents(s, courseId) + [env.caller]]
      && o.state.studentEnrollments == s.studentEnrollments[env.caller := StudentCourses(s, env.caller) + [courseId]]
      && o.state.courses == s.courses[courseId := s.courses[courseId].(enrolledCount := s.courses[courseId].enrolledCount + 1)]
      && o.state.(courses := s.courses, courseStudents := s.courseStudents, studentEnrollments := s.studentEnrollments) == s
  {
    if courseId !in s.courses then Outcome(s, Err(CourseNotFound))
    else
      var c := s.courses[courseId];
      if !c.active then Outcome(s, Err(CourseNotActive))
      else if env.now >= c.startTime then Outcome(s, Err(CourseInProgress))
      else if c.enrolledCount >= c.maxStudents then Outcome(s, Err(CourseIsFull))
      else if VerifyEnrollment(s, env.caller, courseId) then Outcome(s, Err(AlreadyEnrolled))
      else if env.transferred < c.price then Outcome(s, Err(InsufficientPayment))
      else if !paid then Outcome(s, Err(PaymentFailed))
      else
        var count := if c.enrolledCount < U32_MAX then c.enrolledCount + 1 else c.enrolledCount;
        Outcome(s.(studentEnrollments := s.studentEnrollments[env.caller := StudentCourses(s, env.caller) + [courseId]],
                   courseStudents := s.courseStudents[courseId := CourseStudents(s, courseId) + [env.caller]],
                   courses := s.courses[courseId := c.(enrolledCount := count)]),
                Ok(()))
  }

  lemma EnrollPreservesInv(s: Contract, env: Env, courseId: u32, paid: bool)
    requires Inv(s)
    ensures Inv(Enroll(s, env, courseId, paid).state)
    ensures CountsMatch(s) ==> CountsMatch(Enroll(s, env, courseId, paid).state)
  {
    var o := Enroll(s, env, courseId, paid);
    if o.result.Ok? {
      var t := o.state;
      var me := env.caller;
      forall a, k
        ensures ListedForStudent(t, a, k) <==> VerifyEnrollment(t, a, k)
      {
        if a == me && k == courseId {
          assert courseId in StudentCourses(t, me);
          assert me in CourseStudents(t, courseId);
        } else {
          assert ListedForStudent(t, a, k) <==> ListedForStudent(s, a, k) by {
            if a == me {
              assert StudentCourses(t, me) == StudentCourses(s, me) + [courseId];
            }
          }
          assert VerifyEnrollment(t, a, k) <==> VerifyEnrollment(s, a, k) by {
            if k == courseId {
              assert CourseStudents(t, courseId) == CourseStudents(s, courseId) + [me];
            }
          }
        }
      }
      assert NoDuplicates(CourseStudents(t, courseId)) by {
        assert me !in CourseStudents(s, courseId);
      }
      forall a: AccountId, k: u32 | VerifyCompletion(t, a, k)
        ensures VerifyEnrollment(t, a, k)
      {
        assert VerifyEnrollment(s, a, k);
        if k == courseId {
          assert CourseStudents(t, courseId) == CourseStudents(s, courseId) + [me];
        }
      }
    }
  }

  /**
   * A second `enroll` by an enrolled student, while the course is still open
   * and has room, is refused with `AlreadyEnrolled` and changes nothing.
   */
  lemma EnrollTwice(s: Contract, env: Env, env2: Env, courseId: u32, paid: bool, paid2: bool)
    requires Enroll(s, env, courseId, paid).result.Ok?
    requires env2.caller == env.caller && env2.now < s.courses[courseId].startTime
    requires s.courses[courseId].enrolledCount + 1 < s.courses[courseId].maxStudents
    ensures var t := Enroll(s, env, courseId, paid).state;
      Enroll(t, env2, courseId, paid2) == Outcome(t, Err(AlreadyEnrolled))
  {
  }

  // ---------------------------------------------------------------------
  // complete_course
  // ---------------------------------------------------------------------

  /** `mint_certificate` once the token is minted: record its info and give it to the student. */
  function RecordCertificate(s: Contract, to: AccountId, id: CertificateId, info: CertificateInfo): (t: Contract)
    ensures t.certificateInfo == s.certificateInfo[id := info]
    ensures ListOr(t.studentCertificates, to) == ListOr(s.studentCertificates, to) + [id]
    ensures t.(certificateInfo := s.certificateInfo, studentCertificates := s.studentCertificates) == s
  {
    s.(certificateInfo := s.certificateInfo[id := info],
       studentCertificates := s.studentCertificates[to := ListOr(s.studentCertificates, to) + [id]])
  }

  /**
   * `complete_course`; `certificate` is the hashed token id and `minted`
   * whether the PSP34 mint of it succeeded. The completion flag is written
   * before the mint, so a failed mint returns `Err` over storage that
   * already holds the flag.
   */
  function CompleteCourse(s: Contract, env: Env, courseId: u32, student: AccountId,
                          certificate: CertificateId, minted: bool): (o: Outcome<()>)
    ensures courseId !in s.courses ==> o == Outcome(s, Err(CourseNotFound))
    ensures courseId in s.courses && env.caller != s.courses[courseId].teacher ==> o == Outcome(s, Err(Unauthorized))
    ensures courseId in s.courses && env.caller == s.courses[courseId].teacher && !VerifyEnrollment(s, student, courseId) ==>
      o == Outcome(s, Err(NotEnrolled))
    ensures (courseId in s.courses && env.caller == s.courses[courseId].teacher && VerifyEnrollment(s, student, courseId)
             && env.now < s.courses[courseId].endTime) ==> o == Outcome(s, Err(CourseInProgress))
    ensures o.result.Err? && o.state != s ==> o.result == Err(NFTMintingFailed) && !minted
    ensures o.result == Err(NFTMintingFailed) ==>
      o.state == s.(courseCompletions := s.courseCompletions[(courseId, student) := true])
    ensures o.result.Ok? <==>
      courseId in s.courses && env.caller == s.courses[courseId].teacher && VerifyEnrollment(s, student, courseId)
      && env.now >= s.courses[courseId].endTime && minted
    ensures o.result.Ok? ==>
      && VerifyCompletion(o.state, student, courseId)
      && o.state.certificateInfo == s.certificateInfo[certificate := CertificateInfo(courseId, s.courses[courseId].title, student, env.now)]
      && ListOr(o.state.studentCertificates, student) == ListOr(s.studentCertificates, student) + [certificate]
      && o.state.courseCompletions == s.courseCompletions[(courseId, student) := true]
      && o.state.studentCertificates == s.studentCertificates[student := ListOr(s.studentCertificates, student) + [certificate]]
      && o.state.(courseCompletions := s.courseCompletions, certificateInfo := s.certificateInfo,
                  studentCertificates := s.studentCertificates) == s
  {
    if courseId !in s.courses then Outcome(s, Err(CourseNotFound))
    else
      var c := s.courses[courseId];
      if env.caller != c.teacher then Outcome(s, Err(Unauthorized))
      else if !VerifyEnrollment(s, student, courseId) then Outcome(s, Err(NotEnrolled))
      else if env.now < c.endTime then Outcome(s, Err(CourseInProgress))
      else
        var marked := s.(courseCompletions := s.courseCompletions[(courseId, student) := true]);
        if !minted then Outcome(marked, Err(NFTMintingFailed))
        else Outcome(RecordCertificate(marked, student, certificate, CertificateInfo(courseId, c.title, student, env.now)), Ok(()))
  }

  /**
   * On chain (with ink!'s revert), `verify_completion` becomes true exactly
   * through a successful `complete_course`; a failed mint leaves no trace. The
   * function body alone does leave the flag behind.
   */
  lemma CompletionOnChain(s: Contract, env: Env, courseId: u32, student: AccountId, certificate: CertificateId, minted: bool)
    requires !VerifyCompletion(s, student, courseId)
    ensures var o := CompleteCourse(s, env, courseId, student, certificate, minted);
      VerifyCompletion(Committed(s, o), student, courseId) <==> o.result.Ok?
    ensures var o := CompleteCourse(s, env, courseId, student, certificate, minted);
      o.result == Err(NFTMintingFailed) ==> VerifyCompletion(o.state, student, courseId) && Committed(s, o) == s
  {
  }

  lemma CompleteCoursePreservesInv(s: Contract, env: Env, courseId: u32, student: AccountId,
                                   certificate: CertificateId, minted: bool)
    requires Inv(s)
    ensures Inv(CompleteCourse(s, env, courseId, student, certificate, minted).state)
    ensures CountsMatch(s) ==> CountsMatch(CompleteCourse(s, env, courseId, student, certificate, minted).state)
  {
    var o := CompleteCourse(s, env, courseId, student, certificate, minted);
    if o.state != s {
      var t := o.state;
      assert forall a, k :: ListedForStudent(t, a, k) == ListedForStudent(s, a, k);
      assert forall a, k :: VerifyEnrollment(t, a, k) == VerifyEnrollment(s, a, k);
      forall a: AccountId, k: u32 | VerifyCompletion(t, a, k)
        ensures VerifyEnrollment(t, a, k)
      {
        if (k, a) != (courseId, student) {
          assert VerifyCompletion(s, a, k);
        }
      }
    }
  }

  // ---------------------------------------------------------------------
  // Views and PSP34
  // ---------------------------------------------------------------------

  /** The stored course ids below `n`, ascending: what `get_courses` visits and finds. */
  function StoredBelow(s: Contract, n: nat): (ids: seq<u32>)
    requires n <= U32_MAX + 1
    ensures forall i :: 0 <= i < |ids| ==> ids[i] < n && ids[i] in s.courses
    ensures forall i, j :: 0 <= i < j < |ids| ==> ids[i] < ids[j]
    ensures forall k: u32 :: k < n && k in s.courses ==> k in ids
  {
    if n == 0 then [] else StoredBelow(s, n - 1) + (if n - 1 in s.courses then [n - 1] else [])
  }

  /** `get_courses`: every stored course with an id below the counter, by ascending id. */
  method GetCourses(s: Contract) returns (courses: seq<Course>)
    ensures |courses| == |StoredBelow(s, s.courseCounter)|
    ensures forall i :: 0 <= i < |courses| ==> courses[i] == s.courses[StoredBelow(s, s.courseCounter)[i]]
    ensures forall k :: k in s.courses && k < s.courseCounter ==> s.courses[k] in courses
  {
    courses := [];
    var id: nat := 0;
    while id < s.courseCounter
      invariant id <= s.courseCounter
      invariant |courses| == |StoredBelow(s, id)|
      invariant forall i :: 0 <= i < |courses| ==> courses[i] == s.courses[StoredBelow(s, id)[i]]
    {
      if id in s.courses {
        courses := courses + [s.courses[id]];
      }
      id := id + 1;
    }
    forall k | k in s.courses && k < s.courseCounter
      ensures s.courses[k] in courses
    {
      var ids := StoredBelow(s, s.courseCounter);
      var i :| 0 <= i < |ids| && ids[i] == k;
      assert courses[i] == s.courses[k];
    }
  }

  /**
   * Under the invariant the listed courses carry ascending ids below the
   * counter, so a course stored at the saturated id `u32::MAX` is never listed.
   */
  lemma ListedCoursesAscending(s: Contract)
    requires Inv(s)
    ensures var ids := StoredBelow(s, s.courseCounter);
      && (forall i, j :: 0 <= i < j < |ids| ==> s.courses[ids[i]].id < s.courses[ids[j]].id)
      && (forall i :: 0 <= i < |ids| ==> s.courses[ids[i]].id < s.courseCounter)
      && (s.courseCounter == U32_MAX ==> U32_MAX !in ids)
  {
  }

  /** The PSP34 `transfer` message: certificates are soulbound. */
  function Transfer(s: Contract, to: AccountId, id: CertificateId, data: Bytes): (o: (Contract, Result<(), Psp34Error>))
    ensures o.0 == s
    ensures o.1 == Err(Custom("Certificates cannot be transferred"))
  {
    (s, Err(Custom("Certificates cannot be transferred")))
  }
}

=== FILE: mounted.dfy ===
/**
 * The room server the backend actually mounts: `POST /room` and the
 * `/metaverse` WebSocket handler. Models apps/backend/src/routes/metaverse-ws.ts.
 *
 * Its `join` calls the async access gate without awaiting it: the gate's
 * synchronous part (the session lookup, which may delete an expired session)
 * runs, but the value checked is a Promise, which is always truthy. The
 * dispatcher is written once with a flag saying whether the gate's answer is
 * honoured: `HandleMessage` is the code as written, `HandleMessageAwaited`
 * the evidently intended one.
 */
module MountedServer {
  import opened Base
  import opened Participant
  import opened RoomRegistry
  import opened Sessions
  import opened AccessGate
  import opened Protocol

  // ---------------------------------------------------------------------
  // POST /room
  // ---------------------------------------------------------------------

  /**
   * `POST /room` as written: the room is created before the checks, so the
   * "already exists" test always fires and the success reply is unreachable.
   * (A body whose `roomId` is missing or not a string is not modelled; the
   * empty string stands for the falsy id.)
   */
  function PostRoom(reg: Registry, roomId: string): (o: RoomResponse)
    ensures !o.reply.success
    ensures o.registry == CreateRoom(reg, roomId)
    ensures roomId in o.registry
    ensures roomId != "" ==> o.reply.error == Some("Room already exists")
    ensures roomId == "" ==> o.reply.error == Some("Invalid room ID")
  {
    var created := CreateRoom(reg, roomId);
    if roomId == "" then RoomResponse(created, RoomReply(false, Some("Invalid room ID"), None))
    else RoomResponse(created, RoomReply(false, Some("Room already exists"), None))
  }

  /** `POST /room` with the checks ahead of the creation, as its comments describe it. */
  function PostRoomIntended(reg: Registry, roomId: string): (o: RoomResponse)
    ensures o.reply.success <==> roomId != "" && roomId !in reg
    ensures roomId == "" ==> o.registry == reg
    ensures roomId != "" ==> o.registry == CreateRoom(reg, roomId)
    ensures o.reply.success ==> o.reply.message == Some("Room " + roomId + " created successfully")
  {
    if roomId == "" then RoomResponse(reg, RoomReply(false, Some("Invalid room ID"), None))
    else if IsRoomExists(reg, roomId) then RoomResponse(reg, RoomReply(false, Some("Room already exists"), None))
    else RoomResponse(CreateRoom(reg, roomId), RoomReply(true, None, Some("Room " + roomId + " created successfully")))
  }

  /** A fresh, valid id: the written handler creates the room yet reports failure. */
  lemma PostRoomReportsFailureForNewRoom()
    ensures PostRoom(map[], "7").reply == RoomReply(false, Some("Room already exists"), None)
    ensures "7" in PostRoom(map[], "7").registry
    ensures PostRoomIntended(map[], "7").reply.success
  {
  }

  // ---------------------------------------------------------------------
  // The message handler, one action at a time
  // ---------------------------------------------------------------------

  /** The reply the join branch sends when access is denied. */
  const DENIED: Frame := Frame("error", None, None, Some("Access denied to this room"), None, None, None)

  /** Whether the join branch goes on past its access test. */
  predicate Admitted(srv: Server, data: MessageData, now: int, ledger: EnrollmentAnswer, awaited: bool)
    requires Truthy(data.userId) && Truthy(data.roomId)
  {
    !awaited || VerifyRoomAccess(srv.sessions, data.userId.value, data.roomId.value, now, ledger).granted
  }

  /** The user the join branch builds and stores: the message's position, a random colour, the room. */
  function Joiner(conn: ConnId, data: MessageData, d: Draws): (u: User)
    requires Truthy(data.userId) && Truthy(data.roomId) && ValidDraws(d)
    ensures u.userId == data.userId.value && u.conn == conn && u.roomId == data.roomId.value
    ensures data.position.Some? ==> u.position == data.position.value
    ensures u.color == GenerateRandomColor(d.color)
  {
    NewUser(data.userId.value, conn, UserOptions(data.position, data.color, data.roomId), d)
  }

  /**
   * `join`: construct the user from the message (its colour ignored), insert
   * it, and on success subscribe the sender and publish the full roster.
   */
  function JoinAction(srv: Server, subs: set<string>, conn: ConnId, data: MessageData,
                      now: int, ledger: EnrollmentAnswer, d: Draws, awaited: bool): (st: Step)
    requires Truthy(data.userId) && Truthy(data.roomId) && ValidDraws(d)
    ensures st.server.sessions == VerifyRoomAccess(srv.sessions, data.userId.value, data.roomId.value, now, ledger).store
    ensures !Admitted(srv, data, now, ledger, awaited) ==>
      st.server.rooms == srv.rooms && st.subscriptions == subs && st.outputs == [Send(DENIED)]
    ensures Admitted(srv, data, now, ledger, awaited) && data.roomId.value !in srv.rooms ==>
      st.server.rooms == srv.rooms && st.subscriptions == subs && st.outputs == []
    ensures Admitted(srv, data, now, ledger, awaited) && data.roomId.value in srv.rooms ==>
      var rid := data.roomId.value;
      var uid := data.userId.value;
      && st.subscriptions == subs + {rid}
      && st.server.rooms.Keys == srv.rooms.Keys
      && (forall k :: k in srv.rooms && k != rid ==> st.server.rooms[k] == srv.rooms[k])
      && GetUser(st.server.rooms, rid, uid) == Some(Joiner(conn, data, d))
      && (forall id :: id != uid ==> GetUser(st.server.rooms, rid, id) == GetUser(srv.rooms, rid, id))
      && |st.outputs| == 1 && st.outputs[0].Publish? && st.outputs[0].topic == rid
      && st.outputs[0].frame.action == "join"
      && st.outputs[0].frame.userId == Some(uid) && st.outputs[0].frame.roomId == Some(rid)
      && st.outputs[0].frame.position == Some(Joiner(conn, data, d).position)
      && st.outputs[0].frame.color == Some(Joiner(conn, data, d).color)
      && st.outputs[0].frame.users == Some(Roster(st.server.rooms[rid]))
  {
    var uid := data.userId.value;
    var rid := data.roomId.value;
    var access := VerifyRoomAccess(srv.sessions, uid, rid, now, ledger);
    var srv1 := srv.(sessions := access.store);
    var hasAccess := if awaited then access.granted else true;
    if !hasAccess then Step(srv1, subs, [Send(DENIED)])
    else
      var user := Joiner(conn, data, d);
      var joined := JoinRoom(srv1.rooms, rid, user);
      if joined.roster.None? then Step(srv1, subs, [])
      else
        Step(srv1.(rooms := joined.registry), subs + {rid},
             [Publish(rid, Frame("join", Some(uid), Some(rid), Some("User " + uid + " joined " + rid),
                                 Some(user.position), Some(user.color), Some(Roster(joined.roster.value))))])
  }

  /**
   * `move`: dropped without a position; otherwise the position is updated and
   * a `move` frame published only if the sender is a member of the room.
   */
  function MoveAction(srv: Server, subs: set<string>, data: MessageData): (st: Step)
    requires Truthy(data.userId) && Truthy(data.roomId)
    ensures st.subscriptions == subs && st.server.sessions == srv.sessions
    ensures data.position.None? || GetUser(srv.rooms, data.roomId.value, data.userId.value).None? ==>
      st == Step(srv, subs, [])
    ensures data.position.Some? && GetUser(srv.rooms, data.roomId.value, data.userId.value).Some? ==>
      var rid := data.roomId.value;
      var uid := data.userId.value;
      var member := GetUser(srv.rooms, rid, uid).value;
      && st.server.rooms == UpdateUserPosition(srv.rooms, rid, uid, data.position.value)
      && GetUser(st.server.rooms, rid, uid) == Some(member.(position := data.position.value))
      && st.outputs == [Publish(rid, Frame("move", Some(uid), Some(rid), None, data.position, Some(member.color), None))]
  {
    if data.position.None? then Step(srv, subs, [])
    else
      var uid := data.userId.value;
      var rid := data.roomId.value;
      var rooms := UpdateUserPosition(srv.rooms, rid, uid, data.position.value);
      var user := GetUser(rooms, rid, uid);
      if user.None? then Step(srv.(rooms := rooms), subs, [])
      else Step(srv.(rooms := rooms), subs,
                [Publish(rid, Frame("move", Some(uid), Some(rid), None, data.position, Some(user.value.color), None))])
  }

  /** `chat`: a stateless relay, and only for a non-empty message from a member of the room. */
  function ChatAction(srv: Server, subs: set<string>, data: MessageData): (st: Step)
    requires Truthy(data.userId) && Truthy(data.roomId)
    ensures st.server == srv && st.subscriptions == subs
    ensures st.outputs != [] <==> Truthy(data.message) && GetUser(srv.rooms, data.roomId.value, data.userId.value).Some?
    ensures st.outputs != [] ==>
      st.outputs == [Publish(data.roomId.value,
        Frame("chat", data.userId, data.roomId, data.message, None,
              Some(GetUser(srv.rooms, data.roomId.value, data.userId.value).value.color), None))]
  {
    if !Truthy(data.message) then Step(srv, subs, [])
    else
      var user := GetUser(srv.rooms, data.roomId.value, data.userId.value);
      if user.None? then Step(srv, subs, [])
      else Step(srv, subs, [Publish(data.roomId.value,
                Frame("chat", data.userId, data.roomId, data.message, None, Some(user.value.color), None))])
  }

  /**
   * `leave`: remove the sender, unsubscribe it and publish the roster after
   * the removal, whether or not the sender was a member.
   */
  function LeaveAction(srv: Server, subs: set<string>, data: MessageData): (st: Step)
    requires Truthy(data.userId) && Truthy(data.roomId)
    ensures st.server.rooms == LeaveRoom(srv.rooms, data.roomId.value, data.userId.value).registry
    ensures st.server.sessions == srv.sessions
    ensures st.subscriptions == subs - {data.roomId.value}
    ensures |st.outputs| == 1 && st.outputs[0].Publish? && st.outputs[0].topic == data.roomId.value
    ensures st.outputs[0].frame.action == "leave" && st.outputs[0].frame.userId == data.userId
    ensures st.outputs[0].frame.roomId == data.roomId
    ensures st.outputs[0].frame.users == Some(Roster(GetPlayersInRoom(st.server.rooms, data.roomId.value)))
    ensures forall j :: j in st.outputs[0].frame.users.value ==> j.userId != data.userId.value
  {
    var uid := data.userId.value;
    var rid := data.roomId.value;
    var left := LeaveRoom(srv.rooms, rid, uid);
    var users := Roster(left.roster);
    assert forall j :: j in users ==> j.userId != uid by {
      forall j | j in users ensures j.userId != uid {
        var i :| 0 <= i < |users| && users[i] == j;
        assert left.roster[i] in left.roster;
      }
    }
    Step(srv.(rooms := left.registry), subs - {rid},
         [Publish(rid, Frame("leave", Some(uid), Some(rid), Some("User " + uid + " left " + rid), None, None, Some(users)))])
  }

  /** The `message` handler, with the join gate honoured (`awaited`) or not. */
  function Dispatch(srv: Server, subs: set<string>, conn: ConnId, msg: Inbound,
                    now: int, ledger: EnrollmentAnswer, d: Draws, awaited: bool): (st: Step)
    requires ValidDraws(d)
    ensures !Addressed(msg) ==> st == Step(srv, subs, [])
    ensures msg.action != Join ==> st.server.sessions == srv.sessions
    ensures msg.action in {Chat, Unknown} ==> st.server == srv && st.subscriptions == subs
    ensures |st.outputs| <= 1
  {
    if !Addressed(msg) then Step(srv, subs, [])
    else
      var data := msg.data.value;
      match msg.action
      case Join => JoinAction(srv, subs, conn, data, now, ledger, d, awaited)
      case Move => MoveAction(srv, subs, data)
      case Chat => ChatAction(srv, subs, data)
      case Leave => LeaveAction(srv, subs, data)
      case Unknown => Step(srv, subs, [])
  }

  /** The handler as written: the join gate's Promise is always truthy. */
  function HandleMessage(srv: Server, subs: set<string>, conn: ConnId, msg: Inbound,
                         now: int, ledger: EnrollmentAnswer, d: Draws): (st: Step)
    requires ValidDraws(d)
    ensures forall o :: o in st.outputs ==> o.Publish?
    ensures !Addressed(msg) ==> st == Step(srv, subs, [])
    ensures Addressed(msg) && msg.action == Join ==>
      st.server.rooms == JoinAction(srv, subs, conn, msg.data.value, now, Rejected, d, false).server.rooms
  {
    Dispatch(srv, subs, conn, msg, now, ledger, d, false)
  }

  /** The handler with the join gate awaited, as evidently intended. */
  function HandleMessageAwaited(srv: Server, subs: set<string>, conn: ConnId, msg: Inbound,
                                now: int, ledger: EnrollmentAnswer, d: Draws): (st: Step)
    requires ValidDraws(d)
    ensures Addressed(msg) && msg.action == Join
            && !VerifyRoomAccess(srv.sessions, msg.data.value.userId.value, msg.data.value.roomId.value, now, ledger).granted ==>
      st.server.rooms == srv.rooms && st.subscriptions == subs && st.outputs == [Send(DENIED)]
  {
    Dispatch(srv, subs, conn, msg, now, ledger, d, true)
  }

  /**
   * The written join admits a user the gate refuses: with no session at all,
   * a join to an existing room still inserts the user and publishes.
   */
  lemma JoinIgnoresDenial(rooms: Registry, conn: ConnId, data: MessageData, now: int, d: Draws)
    requires ValidDraws(d) && Truthy(data.userId) && Truthy(data.roomId)
    requires data.roomId.value in rooms
    ensures !VerifyRoomAccess(map[], data.userId.value, data.roomId.value, now, Rejected).granted
    ensures var st := HandleMessage(Server(rooms, map[]), {}, conn, Inbound(Join, Some(data)), now, Rejected, d);
      GetUser(st.server.rooms, data.roomId.value, data.userId.value).Some? && |st.outputs| == 1
    ensures HandleMessageAwaited(Server(rooms, map[]), {}, conn, Inbound(Join, Some(data)), now, Rejected, d).outputs
      == [Send(DENIED)]
  {
  }

  /** The `close` hook: nothing is cleaned up. */
  function OnClose(srv: Server): Server
  {
    srv
  }

  /**
   * A participant whose connection closed without `leave` stays in its room
   * and keeps appearing in the rosters later joins publish.
   */
  lemma ClosedParticipantLingers(srv: Server, conn: ConnId, joinA: MessageData, joinB: MessageData,
                                 now: int, ledger: EnrollmentAnswer, d1: Draws, d2: Draws)
    requires ValidDraws(d1) && ValidDraws(d2)
    requires Truthy(joinA.userId) && Truthy(joinA.roomId) && Truthy(joinB.userId) && Truthy(joinB.roomId)
    requires joinA.roomId == joinB.roomId && joinA.userId != joinB.userId
    requires joinA.roomId.value in srv.rooms
    ensures var a := HandleMessage(srv, {}, conn, Inbound(Join, Some(joinA)), now, ledger, d1);
      var b := HandleMessage(OnClose(a.server), {}, conn + 1, Inbound(Join, Some(joinB)), now, ledger, d2);
      && GetUser(b.server.rooms, joinA.roomId.value, joinA.userId.value).Some?
      && |b.outputs| == 1
      && exists j :: j in b.outputs[0].frame.users.value && j.userId == joinA.userId.value
  {
    var rid := joinA.roomId.value;
    var a := HandleMessage(srv, {}, conn, Inbound(Join, Some(joinA)), now, ledger, d1);
    var b := HandleMessage(OnClose(a.server), {}, conn + 1, Inbound(Join, Some(joinB)), now, ledger, d2);
    var member := GetUser(b.server.rooms, rid, joinA.userId.value).value;
    assert member in b.server.rooms[rid];
    var i :| 0 <= i < |b.server.rooms[rid]| && b.server.rooms[rid][i] == member;
    assert b.outputs[0].frame.users.value[i] == ToJson(member);
  }

  /**
   * One message, gated or not, keeps the registry invariant (unique ids per
   * room, each member naming its room) and a consistent session store.
   */
  lemma HandleMessageKeepsInvariants(srv: Server, subs: set<string>, conn: ConnId, msg: Inbound,
                                     now: int, ledger: EnrollmentAnswer, d: Draws)
    requires ValidDraws(d)
    ensures Valid(srv.rooms) ==> Valid(HandleMessage(srv, subs, conn, msg, now, ledger, d).server.rooms)
    ensures Consistent(srv.sessions) ==> Consistent(HandleMessage(srv, subs, conn, msg, now, ledger, d).server.sessions)
    ensures Valid(srv.rooms) ==> Valid(HandleMessageAwaited(srv, subs, conn, msg, now, ledger, d).server.rooms)
    ensures Consistent(srv.sessions) ==> Consistent(HandleMessageAwaited(srv, subs, conn, msg, now, ledger, d).server.sessions)
  {
  }
}

=== FILE: participant.dfy ===
/**
 * One connected client as the room server keeps it: identity, position,
 * display colour, current room and the connection that owns it.
 * Models apps/backend/src/User.ts.
 */
module Participant {
  import opened Base

  /** A point on the shared map. The server uses IEEE doubles; the model uses reals. */
  datatype Position = Position(x: real, y: real)

  /** The live WebSocket a participant is reached through; never serialised. */
  type ConnId = nat

  datatype User = User(userId: string, position: Position, color: string, roomId: string, conn: ConnId)

  /** The optional constructor arguments; `color` is accepted and then ignored. */
  datatype UserOptions = UserOptions(position: Option<Position>, color: Option<string>, roomId: Option<string>)

  /** The `Math.random()` draws the constructor consumes. */
  datatype Draws = Draws(x: real, y: real, color: real)

  /** What `Math.random()` promises: every draw lies in [0, 1). */
  predicate ValidDraws(d: Draws)
  {
    0.0 <= d.x < 1.0 && 0.0 <= d.y < 1.0 && 0.0 <= d.color < 1.0
  }

  /** Room a participant is assigned to before it joins one. */
  const LOBBY: string := "lobby"

  /** Side of the square default positions are drawn from. */
  const POSITION_RANGE: real := 100.0

  /** The colour scale `0xffffff`: draws are scaled by it and floored, so it is never reached. */
  const COLOR_SCALE: nat := 16777215

  // ---------------------------------------------------------------------
  // Lower-case, unpadded hexadecimal (`Number.prototype.toString(16)`)
  // ---------------------------------------------------------------------

  predicate IsLowerHexDigit(c: char)
  {
    '0' <= c <= '9' || 'a' <= c <= 'f'
  }

  predicate IsLowerHex(s: string)
  {
    forall i :: 0 <= i < |s| ==> IsLowerHexDigit(s[i])
  }

  function HexDigit(d: nat): (c: char)
    requires d < 16
    ensures IsLowerHexDigit(c)
  {
    if d < 10 then (48 + d) as char else (87 + d) as char
  }

  function DigitValue(c: char): (d: nat)
    requires IsLowerHexDigit(c)
    ensures d < 16
  {
    if c <= '9' then c as int - 48 else c as int - 87
  }

  /** The digits of `n` in base 16, most significant first, without leading zeros. */
  function ToHex(n: nat): (s: string)
    ensures 1 <= |s|
    ensures IsLowerHex(s)
    ensures s[0] != '0' || n == 0
    decreases n
  {
    if n < 16 then [HexDigit(n)] else ToHex(n / 16) + [HexDigit(n % 16)]
  }

  /** The value of a string of lower-case hex digits; the inverse of `ToHex`. */
  function FromHex(s: string): nat
    requires IsLowerHex(s)
  {
    if |s| == 0 then 0 else 16 * FromHex(s[..|s| - 1]) + DigitValue(s[|s| - 1])
  }

  lemma {:induction false} HexRoundTrip(n: nat)
    ensures FromHex(ToHex(n)) == n
    decreases n
  {
    var s := ToHex(n);
    if n < 16 {
      assert s[..|s| - 1] == [];
    } else {
      assert s[..|s| - 1] == ToHex(n / 16);
      HexRoundTrip(n / 16);
    }
  }

  function Pow16(k: nat): (p: nat)
    ensures p >= 1
  {
    if k == 0 then 1 else 16 * Pow16(k - 1)
  }

  /** A number below `16^k` has at most `k` hex digits. */
  lemma {:induction false} HexLength(n: nat, k: nat)
    requires 1 <= k
    requires n < Pow16(k)
    ensures |ToHex(n)| <= k
    decreases n
  {
    if n >= 16 {
      assert Pow16(1) == 16;
      assert k >= 2;
      assert n / 16 < Pow16(k - 1);
      HexLength(n / 16, k - 1);
    }
  }

  lemma WhiteValue()
    ensures FromHex("ffffff") == COLOR_SCALE
  {
    var w := "ffffff";
    assert w[..5] == "fffff" && w[..5][..4] == "ffff" && w[..5][..4][..3] == "fff";
    assert w[..5][..4][..3][..2] == "ff" && w[..5][..4][..3][..2][..1] == "f";
    assert FromHex("f") == 15;
    assert FromHex("ff") == 255;
    assert FromHex("fff") == 4095;
    assert FromHex("ffff") == 65535;
    assert FromHex("fffff") == 1048575;
  }

  // ---------------------------------------------------------------------
  // Random defaults
  // ---------------------------------------------------------------------

  /** `Math.floor(draw * 16777215)`. */
  function ColorIndex(draw: real): (n: nat)
    requires 0.0 <= draw < 1.0
    ensures n < COLOR_SCALE
  {
    (draw * COLOR_SCALE as real).Floor
  }

  /**
   * `generateRandomColor`: `#` and the unpadded lower-case hex of an integer
   * in [0, 0xffffff); so one to six digits, and never `#ffffff`.
   */
  function GenerateRandomColor(draw: real): (c: string)
    requires 0.0 <= draw < 1.0
    ensures 2 <= |c| <= 7 && c[0] == '#'
    ensures IsLowerHex(c[1..])
    ensures c[1] != '0' || c == "#0"
    ensures FromHex(c[1..]) < COLOR_SCALE
    ensures c != "#ffffff"
  {
    var n := ColorIndex(draw);
    HexLength(n, 6);
    HexRoundTrip(n);
    WhiteValue();
    var c := "#" + ToHex(n);
    assert c[1..] == ToHex(n);
    c
  }

  /** `options.position || { x: random * 100, y: random * 100 }`. */
  function DefaultPosition(given: Option<Position>, d: Draws): (p: Position)
    requires ValidDraws(d)
    ensures given.Some? ==> p == given.value
    ensures given.None? ==> 0.0 <= p.x < POSITION_RANGE && 0.0 <= p.y < POSITION_RANGE
  {
    if given.Some? then given.value else Position(d.x * POSITION_RANGE, d.y * POSITION_RANGE)
  }

  /** The `User` constructor. */
  function NewUser(userId: string, conn: ConnId, options: UserOptions, d: Draws): (u: User)
    requires ValidDraws(d)
    ensures u.userId == userId && u.conn == conn
    ensures options.position.Some? ==> u.position == options.position.value
    ensures options.position.None? ==> 0.0 <= u.position.x < POSITION_RANGE && 0.0 <= u.position.y < POSITION_RANGE
    ensures 2 <= |u.color| <= 7 && u.color[0] == '#' && u.color != "#ffffff"
    ensures IsLowerHex(u.color[1..]) && (u.color[1] != '0' || u.color == "#0")
    ensures u.color == GenerateRandomColor(d.color)
    ensures Truthy(options.roomId) ==> u.roomId == options.roomId.value
    ensures !Truthy(options.roomId) ==> u.roomId == LOBBY
  {
    User(userId, DefaultPosition(options.position, d), GenerateRandomColor(d.color),
         if Truthy(options.roomId) then options.roomId.value else LOBBY, conn)
  }

  /** A colour passed in the options never reaches the participant. */
  lemma NewUserIgnoresColorOption(userId: string, conn: ConnId, options: UserOptions, c: Option<string>, d: Draws)
    requires ValidDraws(d)
    ensures NewUser(userId, conn, options.(color := c), d) == NewUser(userId, conn, options, d)
  {
  }

  // ---------------------------------------------------------------------
  // Serialisation
  // ---------------------------------------------------------------------

  /** The four fields `toJSON` exposes; there is no place for the connection. */
  datatype UserJson = UserJson(userId: string, position: Position, color: string, roomId: string)

  function ToJson(u: User): (j: UserJson)
    ensures j.userId == u.userId && j.position == u.position
    ensures j.color == u.color && j.roomId == u.roomId
  {
    UserJson(u.userId, u.position, u.color, u.roomId)
  }

  /** Rebuilds a participant from its projection and the connection it came from. */
  function FromJson(j: UserJson, conn: ConnId): User
  {
    User(j.userId, j.position, j.color, j.roomId, conn)
  }

  lemma ToJsonRoundTrip(u: User)
    ensures FromJson(ToJson(u), u.conn) == u
    ensures forall c: ConnId :: ToJson(u.(conn := c)) == ToJson(u)
  {
  }
}

=== FILE: protocol.dfy ===
/**
 * The shapes both WebSocket handlers share: inbound messages, outbound
 * frames, transport effects and the server state one message acts on.
 * Shapes follow apps/backend/src/types.ts and the handlers' schemas.
 */
module Protocol {
  import opened Base
  import opened Participant
  import opened RoomRegistry
  import opened Sessions

  /** The four actions of the schema; anything else falls through the `switch`. */
  datatype Action = Join | Move | Chat | Leave | Unknown

  /** The `data` object of an inbound message; every field may be missing. */
  datatype MessageData = MessageData(
    userId: Option<string>,
    roomId: Option<string>,
    message: Option<string>,
    position: Option<Position>,
    color: Option<string>)

  datatype Inbound = Inbound(action: Action, data: Option<MessageData>)

  /** The shape check both handlers run first: `data`, `userId` and `roomId` present and non-empty. */
  predicate Addressed(m: Inbound)
  {
    m.data.Some? && Truthy(m.data.value.userId) && Truthy(m.data.value.roomId)
  }

  /** A server-to-client frame, as the response schema describes it. */
  datatype Frame = Frame(
    action: string,
    userId: Option<string>,
    roomId: Option<string>,
    message: Option<string>,
    position: Option<Position>,
    color: Option<string>,
    users: Option<seq<UserJson>>)

  /** What a handler asks the transport to do: broadcast to a room's topic, or reply to the sender. */
  datatype Output = Publish(topic: string, frame: Frame) | Send(frame: Frame)

  /** The process-wide state a message handler reads and writes. */
  datatype Server = Server(rooms: Registry, sessions: Store)

  /** The state after one message: the server, the sender's topic subscriptions, and the effects in order. */
  datatype Step = Step(server: Server, subscriptions: set<string>, outputs: seq<Output>)

  /** `users.map(u => u.toJSON())`. */
  function Roster(users: seq<User>): (r: seq<UserJson>)
    ensures |r| == |users|
    ensures forall i :: 0 <= i < |users| ==> r[i] == ToJson(users[i])
  {
    seq(|users|, i requires 0 <= i < |users| => ToJson(users[i]))
  }

  /** The reply of a `POST /room` request. */
  datatype RoomReply = RoomReply(success: bool, error: Option<string>, message: Option<string>)

  datatype RoomResponse = RoomResponse(registry: Registry, reply: RoomReply)
}

=== FILE: registry.dfy ===
/**
 * The process-wide room registry: room id to the members of that room.
 * Models apps/backend/src/roomManager.ts. The source keeps a
 * `Map<string, Map<string, User>>`; the inner JavaScript `Map` iterates in
 * first-insertion order, so a room is modelled as the sequence of its members
 * in that order, each user id at most once.
 */
module RoomRegistry {
  import opened Base
  import opened Participant

  /** A room's members in first-insertion order. */
  type Room = seq<User>

  /** Room id to room. */
  type Registry = map<string, Room>

  // ---------------------------------------------------------------------
  // One room as an insertion-ordered map from user id to user
  // ---------------------------------------------------------------------

  /** `room.get(userId)`: the entry stored under `userId`, if any. */
  function Find(room: Room, userId: string): (r: Option<User>)
    ensures r.Some? ==> r.value in room && r.value.userId == userId
    ensures r.None? ==> forall v :: v in room ==> v.userId != userId
  {
    if room == [] then None
    else if room[0].userId == userId then Some(room[0])
    else Find(room[1..], userId)
  }

  predicate Has(room: Room, userId: string)
  {
    Find(room, userId).Some?
  }

  /** The user ids of a room in iteration order. */
  function Ids(room: Room): (ids: seq<string>)
    ensures |ids| == |room|
  {
    if room == [] then [] else [room[0].userId] + Ids(room[1..])
  }

  /** No user id occurs twice: what a `Map` keyed by user id guarantees. */
  predicate Distinct(room: Room)
  {
    room == [] || (!Has(room[1..], room[0].userId) && Distinct(room[1..]))
  }

  /** `room.set(u.userId, u)`: an existing key keeps its slot, a new key goes last. */
  function Put(room: Room, u: User): (r: Room)
    ensures Find(r, u.userId) == Some(u)
    ensures forall id :: id != u.userId ==> Find(r, id) == Find(room, id)
    ensures Has(room, u.userId) ==> Ids(r) == Ids(room)
    ensures !Has(room, u.userId) ==> Ids(r) == Ids(room) + [u.userId]
    ensures forall v :: v in r ==> v == u || v in room
  {
    if room == [] then [u]
    else if room[0].userId == u.userId then [u] + room[1..]
    else
      var rest := Put(room[1..], u);
      assert ([room[0]] + rest)[1..] == rest;
      assert Ids([room[0]] + rest) == [room[0].userId] + Ids(rest);
      [room[0]] + rest
  }

  /** `room.delete(userId)`: drops that entry and keeps the order of the others. */
  function Delete(room: Room, userId: string): (r: Room)
    ensures forall v :: v in r <==> v in room && v.userId != userId
    ensures !Has(r, userId)
    ensures forall id :: id != userId ==> Find(r, id) == Find(room, id)
    ensures !Has(room, userId) ==> r == room
  {
    if room == [] then []
    else
      var rest := Delete(room[1..], userId);
      assert room == [room[0]] + room[1..];
      if room[0].userId == userId then rest
      else
        assert ([room[0]] + rest)[1..] == rest;
        [room[0]] + rest
  }

  /**
   * In a room with unique ids, `delete` cuts the entry out where it stands:
   * the other members keep their insertion order.
   */
  lemma {:induction false} DeleteKeepsOrder(room: Room, userId: string)
    ensures Distinct(room) && Has(room, userId) ==>
      exists i :: 0 <= i < |room| && room[i].userId == userId && Delete(room, userId) == room[..i] + room[i+1..]
    decreases |room|
  {
    if room != [] && Distinct(room) && Has(room, userId) {
      if room[0].userId == userId {
        assert room[..0] + room[1..] == room[1..];
      } else {
        DeleteKeepsOrder(room[1..], userId);
        DeleteOrderStep(room, userId, Delete(room[1..], userId));
      }
    }
  }

  /** Removing an entry behind the first one keeps the first in front of the rest. */
  lemma DeleteOrderStep(room: Room, userId: string, rest: Room)
    requires room != []
    ensures (exists j :: 0 <= j < |room| - 1 && room[1..][j].userId == userId && rest == room[1..][..j] + room[1..][j+1..]) ==>
      exists i :: 0 <= i < |room| && room[i].userId == userId && [room[0]] + rest == room[..i] + room[i+1..]
  {
    if j :| 0 <= j < |room| - 1 && room[1..][j].userId == userId && rest == room[1..][..j] + room[1..][j+1..] {
      assert [room[0]] + rest == room[..j+1] + room[j+2..];
    }
  }

  lemma {:induction false} PutKeepsDistinct(room: Room, u: User)
    ensures Distinct(room) ==> Distinct(Put(room, u))
    decreases |room|
  {
    if Distinct(room) && room != [] && room[0].userId != u.userId {
      PutKeepsDistinct(room[1..], u);
      var r := Put(room, u);
      assert r[1..] == Put(room[1..], u);
    }
  }

  lemma {:induction false} DeleteKeepsDistinct(room: Room, userId: string)
    ensures Distinct(room) ==> Distinct(Delete(room, userId))
    decreases |room|
  {
    if Distinct(room) && room != [] {
      DeleteKeepsDistinct(room[1..], userId);
      if room[0].userId != userId {
        var r := Delete(room, userId);
        assert r[1..] == Delete(room[1..], userId);
      }
    }
  }

  // ---------------------------------------------------------------------
  // The registry
  // ---------------------------------------------------------------------

  /**
   * What every operation keeps: inside a room each user id occurs once,
   * and each member's `roomId` names the room it is stored in.
   */
  predicate Valid(reg: Registry)
  {
    forall r :: r in reg ==> ValidRoom(reg[r], r)
  }

  /** A room stored under `roomId`: distinct ids, and every member records `roomId`. */
  predicate ValidRoom(room: Room, roomId: string)
  {
    Distinct(room) && forall v :: v in room ==> v.roomId == roomId
  }

  /** `isRoomExists`: exactly the rooms `createRoom` would leave alone. */
  function IsRoomExists(reg: Registry, roomId: string): (b: bool)
    ensures b <==> CreateRoom(reg, roomId) == reg
  {
    roomId in reg
  }

  /** `createRoom`: makes an empty room unless one already exists. */
  function CreateRoom(reg: Registry, roomId: string): (r: Registry)
    ensures r.Keys == reg.Keys + {roomId}
    ensures forall k :: k in reg ==> r[k] == reg[k]
    ensures roomId !in reg ==> r[roomId] == []
  {
    if roomId in reg then reg else reg[roomId := []]
  }

  lemma CreateRoomIdempotent(reg: Registry, roomId: string)
    ensures CreateRoom(CreateRoom(reg, roomId), roomId) == CreateRoom(reg, roomId)
    ensures roomId in reg ==> CreateRoom(reg, roomId) == reg
    ensures Valid(reg) ==> Valid(CreateRoom(reg, roomId))
  {
  }

  /** `getPlayersInRoom`: the members in insertion order, `[]` for a missing room. */
  function GetPlayersInRoom(reg: Registry, roomId: string): (users: seq<User>)
    ensures roomId !in reg ==> users == []
    ensures roomId in reg ==> users == reg[roomId]
    ensures Valid(reg) ==> Distinct(users) && forall v :: v in users ==> v.roomId == roomId
  {
    if roomId in reg then reg[roomId] else []
  }

  /** `getUser`. */
  function GetUser(reg: Registry, roomId: string, userId: string): (r: Option<User>)
    ensures r.Some? <==> roomId in reg && Has(reg[roomId], userId)
    ensures r.Some? ==> r.value in GetPlayersInRoom(reg, roomId) && r.value.userId == userId
  {
    if roomId in reg then Find(reg[roomId], userId) else None
  }

  datatype JoinOutcome = JoinOutcome(registry: Registry, roster: Option<Room>)

  /**
   * `joinRoom`: `null` for a missing room; otherwise stores the user under its
   * id with `roomId` set to the room and returns the room's roster.
   */
  function JoinRoom(reg: Registry, roomId: string, user: User): (o: JoinOutcome)
    ensures o.roster.None? <==> roomId !in reg
    ensures roomId !in reg ==> o.registry == reg
    ensures o.registry.Keys == reg.Keys
    ensures forall k :: k in reg && k != roomId ==> o.registry[k] == reg[k]
    ensures roomId in reg ==> o.roster == Some(o.registry[roomId])
    ensures roomId in reg ==> Find(o.registry[roomId], user.userId) == Some(user.(roomId := roomId))
    ensures roomId in reg ==> forall id :: id != user.userId ==> Find(o.registry[roomId], id) == Find(reg[roomId], id)
    ensures Valid(reg) ==> Valid(o.registry)
  {
    if roomId !in reg then JoinOutcome(reg, None)
    else
      var stored := user.(roomId := roomId);
      var room := Put(reg[roomId], stored);
      PutKeepsDistinct(reg[roomId], stored);
      JoinOutcome(reg[roomId := room], Some(room))
  }

  /**
   * Iteration order of a roster: a re-join under an id already present keeps
   * that id's slot; a new id is listed last.
   */
  lemma JoinOrder(reg: Registry, roomId: string, user: User)
    requires roomId in reg
    ensures Has(reg[roomId], user.userId) ==> Ids(JoinRoom(reg, roomId, user).roster.value) == Ids(reg[roomId])
    ensures !Has(reg[roomId], user.userId) ==> Ids(JoinRoom(reg, roomId, user).roster.value) == Ids(reg[roomId]) + [user.userId]
  {
  }

  datatype LeaveOutcome = LeaveOutcome(registry: Registry, roster: Room)

  /**
   * `leaveRoom`: removes the user from an existing room, deletes the room if it
   * is then empty, and returns the room's roster after the removal.
   */
  function LeaveRoom(reg: Registry, roomId: string, userId: string): (o: LeaveOutcome)
    ensures roomId !in reg ==> o.registry == reg && o.roster == []
    ensures o.roster == GetPlayersInRoom(o.registry, roomId)
    ensures roomId in reg ==> forall v :: v in o.roster <==> v in reg[roomId] && v.userId != userId
    ensures roomId in reg && o.roster != [] ==> o.roster == Delete(reg[roomId], userId)
    ensures !Has(o.roster, userId)
    ensures roomId in o.registry <==> roomId in reg && o.roster != []
    ensures forall k :: k != roomId ==> (k in o.registry <==> k in reg)
    ensures forall k :: k in reg && k != roomId ==> o.registry[k] == reg[k]
    ensures roomId in reg && !Has(reg[roomId], userId) && reg[roomId] != [] ==> o.registry == reg
    ensures Valid(reg) ==> Valid(o.registry)
  {
    if roomId !in reg then LeaveOutcome(reg, [])
    else
      var room := Delete(reg[roomId], userId);
      DeleteKeepsDistinct(reg[roomId], userId);
      if room == [] then LeaveOutcome(reg - {roomId}, [])
      else LeaveOutcome(reg[roomId := room], room)
  }

  /** `updateUserPosition`: moves one member of one room; a no-op when either is absent. */
  function UpdateUserPosition(reg: Registry, roomId: string, userId: string, position: Position): (r: Registry)
    ensures !(roomId in reg && Has(reg[roomId], userId)) ==> r == reg
    ensures r.Keys == reg.Keys
    ensures forall k :: k in reg && k != roomId ==> r[k] == reg[k]
    ensures roomId in reg && Has(reg[roomId], userId) ==>
      && Find(r[roomId], userId) == Some(Find(reg[roomId], userId).value.(position := position))
      && (forall id :: id != userId ==> Find(r[roomId], id) == Find(reg[roomId], id))
      && Ids(r[roomId]) == Ids(reg[roomId])
    ensures Valid(reg) ==> Valid(r)
  {
    if roomId in reg && Has(reg[roomId], userId) then
      var moved := Find(reg[roomId], userId).value.(position := position);
      PutKeepsDistinct(reg[roomId], moved);
      reg[roomId := Put(reg[roomId], moved)]
    else reg
  }

  /** Removes `userId` from room `k`, dropping the room if that empties it. */
  function SweepRoom(r: Registry, k: string, userId: string): (r': Registry)
    requires k in r && Has(r[k], userId)
    ensures forall j :: j != k ==> (j in r' <==> j in r) && (j in r ==> r'[j] == r[j])
    ensures k in r' <==> Delete(r[k], userId) != []
    ensures k in r' ==> r'[k] == Delete(r[k], userId)
    ensures Valid(r) ==> Valid(r')
  {
    var room := Delete(r[k], userId);
    DeleteKeepsDistinct(r[k], userId);
    if room == [] then r - {k} else r[k := room]
  }

  /** The state of room `k` once the sweep for `userId` has visited it. */
  ghost predicate Swept(reg: Registry, r: Registry, k: string, userId: string)
    requires k in reg
  {
    if Has(reg[k], userId) then
      (k in r <==> Delete(reg[k], userId) != []) && (k in r ==> r[k] == Delete(reg[k], userId))
    else k in r && r[k] == reg[k]
  }

  /**
   * `removeUserFromAllRooms`: deletes the user from every room holding it and
   * drops each room this empties; rooms without the user stay, empty or not.
   */
  method RemoveUserFromAllRooms(reg: Registry, userId: string) returns (r: Registry)
    ensures forall k :: k in r ==> !Has(r[k], userId)
    ensures forall k :: k in r ==> k in reg
    ensures forall k :: k in reg && !Has(reg[k], userId) ==> k in r && r[k] == reg[k]
    ensures forall k :: k in reg && Has(reg[k], userId) ==>
      (k in r <==> Delete(reg[k], userId) != []) && (k in r ==> r[k] == Delete(reg[k], userId))
    ensures Valid(reg) ==> Valid(r)
  {
    r := reg;
    var todo := reg.Keys;
    while todo != {}
      invariant todo <= reg.Keys
      invariant forall k :: k in r ==> k in reg
      invariant forall k :: k in todo ==> k in r && r[k] == reg[k]
      invariant forall k :: k in reg && k !in todo ==> Swept(reg, r, k, userId)
      invariant Valid(reg) ==> Valid(r)
      decreases todo
    {
      var k :| k in todo;
      if Has(r[k], userId) {
        r := SweepRoom(r, k, userId);
      }
      todo := todo - {k};
    }
    forall k | k in r
      ensures !Has(r[k], userId)
    {
      assert Swept(reg, r, k, userId);
    }
  }
}

=== FILE: sessions.dfy ===
/**
 * Wallet sessions: address to the time its session was created, valid for
 * 24 hours and expired lazily on lookup. Models apps/backend/src/auth.ts.
 * The clock (`Date.now()`) is a parameter.
 */
module Sessions {

  /** The stored record; `address` repeats the key it is stored under. */
  datatype Session = Session(address: string, timestamp: int)

  type Store = map<string, Session>

  /** 24 hours in milliseconds. */
  const SESSION_TTL_MS: int := 24 * 60 * 60 * 1000

  /** Every record is stored under its own address, as `createSession` does it. */
  predicate Consistent(s: Store)
  {
    forall a :: a in s ==> s[a].address == a
  }

  /** `createSession`: (re)starts the address's session at `now`. */
  function CreateSession(s: Store, address: string, now: int): (r: Store)
    ensures address in r && r[address].timestamp == now
    ensures forall a :: a != address ==> (a in r <==> a in s)
    ensures forall a :: a in s && a != address ==> r[a] == s[a]
    ensures Consistent(s) ==> Consistent(r)
  {
    s[address := Session(address, now)]
  }

  predicate Expired(session: Session, now: int)
  {
    now - session.timestamp > SESSION_TTL_MS
  }

  datatype Verdict = Verdict(store: Store, valid: bool)

  /** `verifySession`: false for an unknown address; an expired session is deleted. */
  function VerifySession(s: Store, address: string, now: int): (v: Verdict)
    ensures address !in s ==> v == Verdict(s, false)
    ensures address in s && Expired(s[address], now) ==> !v.valid && v.store == s - {address}
    ensures address in s && !Expired(s[address], now) ==> v.store == s
    ensures v.valid ==> address in s && now - s[address].timestamp <= SESSION_TTL_MS
    ensures Consistent(s) ==> (v.valid <==> address in s && !Expired(s[address], now))
    ensures address in s && !Expired(s[address], now) ==> (v.valid <==> s[address].address == address)
    ensures forall a :: a != address ==> (a in v.store <==> a in s)
    ensures forall a :: a in s && a != address ==> v.store[a] == s[a]
    ensures Consistent(s) ==> Consistent(v.store)
  {
    if address !in s then Verdict(s, false)
    else if Expired(s[address], now) then Verdict(s - {address}, false)
    else Verdict(s, s[address].address == address)
  }

  /**
   * A session created at `t` is valid exactly while `now - t <= 24 h`: the
   * bound itself is still inside the window.
   */
  lemma SessionWindow(s: Store, address: string, t: int, now: int)
    ensures VerifySession(CreateSession(s, address, t), address, now).valid <==> now - t <= SESSION_TTL_MS
    ensures VerifySession(CreateSession(s, address, t), address, t + SESSION_TTL_MS).valid
    ensures !VerifySession(CreateSession(s, address, t), address, t + SESSION_TTL_MS + 1).valid
  {
  }

  /** Once a lookup found the session expired, no later lookup succeeds until it is recreated. */
  lemma ExpiryIsFinal(s: Store, address: string, now: int, later: int)
    requires address in s && Expired(s[address], now)
    ensures !VerifySession(VerifySession(s, address, now).store, address, later).valid
    ensures VerifySession(CreateSession(VerifySession(s, address, now).store, address, later), address, later).valid
  {
  }

  /** Re-creating a session refreshes it: only the latest creation time counts. */
  lemma CreateSessionRefreshes(s: Store, address: string, t1: int, t2: int, now: int)
    ensures CreateSession(CreateSession(s, address, t1), address, t2) == CreateSession(s, address, t2)
  {
  }

  /** What `signatureVerify` did: returned a verdict, or threw. */
  datatype SignatureCheck = Checked(isValid: bool) | Threw

  /** `verifySignature`: never throws; an exception counts as an invalid signature. */
  function VerifySignature(check: SignatureCheck): (ok: bool)
    ensures ok <==> check == Checked(true)
  {
    match check
    case Checked(isValid) => isValid
    case Threw => false
  }
}
